=== FILE: README.md ===
# ShareIt booking core in Dafny

ShareIt is an item-sharing service. Users list items, other users book them
for a time window, the owner approves or rejects each booking, and a past
booker may leave a comment on the item. The repository holds two iterations
of the service:

- the monolith, under the root `src/` tree;
- the `server/` backend, with a `gateway/` front that vets requests.

This project models both iterations side by side. Where they share logic, one
function is given a parameter for the difference. Where they differ, each has
its own module, plus a lemma that names the difference.

What is modelled:

- **Booking lifecycle** (`Lifecycle`). Creation goes through a fail-fast
  chain: the three date checks, then item lookup, availability, self-booking
  and booker lookup. A new booking is WAITING. The owner-only decision is
  parametrised by `Variant`: the server refuses only an APPROVED booking, the
  monolith anything that is not WAITING. A booking can be read only by its
  booker or its item's owner.
- **Booking listings**:
  - `BookingQueries`: each repository query, as a filter over the stored
    bookings followed by a stable sort, newest start first.
  - `BookingRepository`: the monolith's repository conditions, and the last
    and next booking of an item.
  - `ServerBookings`: the server's paged listings.
  - `MonolithBookings`: the monolith's unpaged listings, with
    StateNotFound.
- **Item services**:
  - `ServerItems` and `MonolithItems`: item views with their last and next
    booking, the owner's item list, keyword search, editing, and comments
    with their eligibility rule.
  - `ItemQueries`: the comment, item and booking reads these services share.
- **Gateway** (`Gateway`): the end-after-start validator.
- **In-memory stores of the monolith**:
  - `UserStore`: an id counter, a user map and an email set, with the
    invariant that the set is exactly the stored users' emails.
  - `ItemStore`: an id counter and an item map, with an ownership check on
    edit and a case-insensitive search.
- **Mappers** (`Mappers`): the booking and item DTO mappers.

Timestamps are integers. `now` is a parameter, read once per operation. The
JPA repositories are one immutable value, `Domain.Db`: users by id; items,
bookings and comments in storage order; and the id counters. `findById` finds
the first stored row with that id. Every operation is a pure function that
returns the new store with its result, or the exception it throws as
`Result.Err`.

A booking holds its item and booker, and a comment its item and author, by
value. Where JPA would hand out entity references, the model refreshes the
copies: `ServerItems.EditItem` rewrites the item inside every booking and
comment of it. `Domain.ReferencesCurrent` states that every stored booking
and comment shows the current rows. Each operation that writes the store
keeps it.

Every paged operation builds its page as `PageRequest.of(from / size, size)`,
which is `Seqs.PageOf`. The integer division means `from` is not a true
offset: a `from` that is not a multiple of `size` snaps back to the start of
the page it falls in (`Seqs.OffsetExactOnlyAtMultiples`). With `from = 3` and
`size = 2`, the page starts at position 2.

The code and its prose description disagree in two places. The model follows
the code in both:

- `addBooking` accepts a start equal to `now`, because its check is
  `isBefore(now)`. `Lifecycle.CheckDates` lets such a window through.
- The server's decision guard refuses only APPROVED. A REJECTED booking can
  therefore be decided again (`Lifecycle.ServerRejectionCanBeReversed`).

## Model

| member | source | states |
|---|---|---|
| Gateway.IsValid | gateway/src/main/java/ru/practicum/shareit/util/validation/EndAfterStartValidator.java:10-14 | false when the start is null, when the end is null, when they are equal, and when the start is after the end; true exactly when both are present and start < end |
| Gateway.GatewayLeavesOnlyThePast | gateway/src/main/java/ru/practicum/shareit/util/validation/EndAfterStartValidator.java:10-14 | a request the gateway lets through never fails the server's order or equal-times check; it passes the date checks exactly when it does not start before now |
| Lifecycle.CheckDates | server/src/main/java/ru/practicum/shareit/booking/service/BookingServiceImpl.java:36-44 | the three date checks in source order: start after end; start or end before now; start equal to end. Each failure is characterised exactly, and all pass iff start < end and now <= start |
| Lifecycle.AddBooking | server/src/main/java/ru/practicum/shareit/booking/service/BookingServiceImpl.java:35-59 | the date errors come before any lookup, then ItemNotFound, ItemIsBooked, NotOwner and UserNotFound in that order. It succeeds iff every check passes. A success appends exactly one WAITING booking with the requested window, item and booker and a fresh id, and leaves users, items and comments unchanged |
| Lifecycle.AddBookingKeepsRequestedWindow | server/src/main/java/ru/practicum/shareit/booking/service/BookingServiceImpl.java:45-57 | the stored booking's start and end are the ones `fromBookingInputDto` copies out of the request |
| Lifecycle.GetBooking | server/src/main/java/ru/practicum/shareit/booking/service/BookingServiceImpl.java:79-85 | BookingNotFound iff no booking has the id; otherwise the booking's view is returned iff the caller is its booker or its item's owner, and NotOwner otherwise |
| Lifecycle.AddedBookingIsVisible | server/src/main/java/ru/practicum/shareit/booking/service/BookingServiceImpl.java:79-85 | right after `addBooking`, `getBooking` of the new id succeeds iff the caller is the booker or the item's owner, returns the view `addBooking` returned, and gives NotOwner to anyone else |
| Lifecycle.GetBookingShowsCurrentRows | server/src/main/java/ru/practicum/shareit/booking/service/BookingServiceImpl.java:79-85 | in a store whose references are current, the view shows the stored item and the stored booker |
| Lifecycle.AddBookingKeepsInvariants | server/src/main/java/ru/practicum/shareit/booking/service/BookingServiceImpl.java:35-59 | creating a booking keeps every reference current and every booking id below the id counter |
| Lifecycle.EditBookingKeepsInvariants | server/src/main/java/ru/practicum/shareit/booking/service/BookingServiceImpl.java:62-76 | a decision keeps every reference current and every booking id below the id counter |
| Lifecycle.Refuses | server/src/main/java/ru/practicum/shareit/booking/service/BookingServiceImpl.java:68 | the decision guard (the monolith's is src/main/java/ru/practicum/shareit/booking/service/BookingServiceImpl.java:63): it lets a decision through exactly when some transition out of the booking's status is allowed for that iteration |
| Lifecycle.EditBooking | server/src/main/java/ru/practicum/shareit/booking/service/BookingServiceImpl.java:62-76 | BookingNotFound, then NotOwner for anyone but the owner, then ItemIsBooked when the variant's guard refuses. It succeeds iff owner and guard allow. On success only that booking's status changes, to APPROVED or REJECTED; every other booking and the rest of the store stay as they were |
| Lifecycle.MonolithDecisionIsFinal | src/main/java/ru/practicum/shareit/booking/service/BookingServiceImpl.java:57-71 | under the monolith's WAITING-only guard, once a decision succeeds every later decision on that booking fails, whoever makes it |
| Lifecycle.ServerApprovalIsFinal | server/src/main/java/ru/practicum/shareit/booking/service/BookingServiceImpl.java:68-72 | on the server, after an approval every later decision on that booking fails |
| Lifecycle.ServerRejectionCanBeReversed | server/src/main/java/ru/practicum/shareit/booking/service/BookingServiceImpl.java:68-72 | on the server the owner can approve a booking that was rejected; on the same store the monolith refuses to |
| Lifecycle.GuardsDifferOnlyOnRejected | src/main/java/ru/practicum/shareit/booking/service/BookingServiceImpl.java:63-65 | the two guards disagree exactly on a REJECTED booking |
| MonolithBookings.AddBooking | src/main/java/ru/practicum/shareit/booking/service/BookingServiceImpl.java:30-54 | the monolith's creation reads the item a second time, after the booker, yet gives the same outcome as the server's for every input |
| MonolithBookings.GetAllUsersBookings | src/main/java/ru/practicum/shareit/booking/service/BookingServiceImpl.java:83-106 | UserNotFound first, then StateNotFound for a state the switch does not name; it succeeds iff neither applies. The result is all the caller's bookings in the state, newest first, unpaged |
| MonolithBookings.GetAllUsersItemsBookings | src/main/java/ru/practicum/shareit/booking/service/BookingServiceImpl.java:109-132 | the same checks in the same order, over the bookings of the caller's items, using the repository's owner conditions |
| MonolithBookings.FiltersAcrossIterations | src/main/java/ru/practicum/shareit/booking/service/BookingServiceImpl.java:88-104 | the exact bookings on which the iterations' state filters part. Booker and owner WAITING also need a start after now; owner CURRENT includes a booking that starts or ends exactly now. Every other state selects the same bookings in both |
| BookingQueries.NewestFirst | server/src/main/java/ru/practicum/shareit/booking/service/BookingServiceImpl.java:167 | the re-sort by start descending is ordered and is a permutation of its input |
| BookingQueries.NewestFirstOfSorted | server/src/main/java/ru/practicum/shareit/booking/service/BookingServiceImpl.java:167 | re-sorting a list that is already newest first returns it unchanged |
| BookingQueries.Query | src/main/java/ru/practicum/shareit/booking/repository/BookingRepository.java:17-55 | a repository query returns exactly the stored bookings of the side that satisfy the condition, newest first, none more often than stored |
| BookingQueries.PageKeepsOrder | server/src/main/java/ru/practicum/shareit/booking/service/BookingServiceImpl.java:96-98 | a page of a newest-first result is newest first and holds only bookings of that result |
| BookingRepository.BookerCond | src/main/java/ru/practicum/shareit/booking/repository/BookingRepository.java:17-32 | the condition of each derived booker query, per state: WAITING is start > now with status WAITING, CURRENT is start < now < end, and so on. It is absent exactly for a state the switch does not name |
| BookingRepository.OwnerCond | src/main/java/ru/practicum/shareit/booking/repository/BookingRepository.java:34-55 | the condition of each owner @Query: ALL takes everything, WAITING is start > now with the status, CURRENT is inclusive (start <= now <= end), PAST is end < now, FUTURE is start > now whatever the status argument |
| BookingRepository.LastItemBooking | src/main/java/ru/practicum/shareit/booking/repository/BookingRepository.java:57-60 | absent iff no booking of the item has started; otherwise a stored booking of the item that started before now and ends no earlier than any other such booking |
| BookingRepository.NextItemBooking | src/main/java/ru/practicum/shareit/booking/repository/BookingRepository.java:62-65 | absent iff no non-REJECTED booking of the item starts after now; otherwise such a booking that starts no later than any other |
| BookingRepository.BookedAndEnded | src/main/java/ru/practicum/shareit/booking/repository/BookingRepository.java:67-70 | exactly the stored bookings with that item, booker and status that ended before now |
| ServerBookings.ServerCond | server/src/main/java/ru/practicum/shareit/booking/service/BookingServiceImpl.java:101-124 | the server's state filters: WAITING and REJECTED by status, PAST end < now, FUTURE start > now, CURRENT start < now < end, any other state everything |
| Seqs.PageOf | server/src/main/java/ru/practicum/shareit/booking/service/BookingServiceImpl.java:98 | `PageRequest.of(from / size, size)`, as every paged listing and search uses it (also src/main/java/ru/practicum/shareit/item/service/ItemServiceImpl.java:97 and :117, server/src/main/java/ru/practicum/shareit/item/service/ItemServiceImpl.java:135): `size` elements from position `(from / size) * size`, or what is left, or none past the end, in the order of the full result |
| Seqs.OffsetExactOnlyAtMultiples | server/src/main/java/ru/practicum/shareit/item/service/ItemServiceImpl.java:135 | `from` is the offset the page starts at exactly when it is a multiple of `size`; any other `from` snaps back to the start of the page it falls in |
| ServerBookings.ListPage | server/src/main/java/ru/practicum/shareit/booking/service/BookingServiceImpl.java:96-124 | the page `from / size` is the slice of the full newest-first result that starts at the page's first position: `size` bookings, or what is left, or none past the end. Each is a stored booking of the side in the state |
| ServerBookings.PagesCoverQuery | server/src/main/java/ru/practicum/shareit/booking/service/BookingServiceImpl.java:96-98 | every booking that matches the query is on some page |
| ServerBookings.GetAllUsersBookings | server/src/main/java/ru/practicum/shareit/booking/service/BookingServiceImpl.java:88-127 | UserNotFound before the page check, then IllegalArgument for from < 0 or size <= 0; it succeeds iff neither applies, with the views of at most `size` of the caller's bookings |
| ServerBookings.GetAllUsersItemsBookings | server/src/main/java/ru/practicum/shareit/booking/service/BookingServiceImpl.java:130-174 | the same checks over the bookings of the caller's items; the extra re-sort leaves the repository page as it was |
| Mappers.ToBookingView | server/src/main/java/ru/practicum/shareit/booking/dto/BookingMapper.java:11-20 | the view keeps id, start, end, status and booker, and its item is the booked item's DTO |
| Mappers.FromBookingInput | server/src/main/java/ru/practicum/shareit/booking/dto/BookingMapper.java:22-27 | copies start and end; id, item, booker and status stay unset |
| Mappers.ToBookingViews | server/src/main/java/ru/practicum/shareit/booking/dto/BookingMapper.java:29-33 | one view per booking, same length and order |
| Mappers.ToItemBookingDto | server/src/main/java/ru/practicum/shareit/booking/dto/BookingMapper.java:35-46 | null maps to a summary with every field null; a booking maps to its id, its booker's id, its item, its start and its end |
| Mappers.ViewAndSummaryAgree | server/src/main/java/ru/practicum/shareit/booking/dto/BookingMapper.java:11-46 | a booking's view and its summary agree on id, booker and times |
| Mappers.ToItemDto | server/src/main/java/ru/practicum/shareit/item/dto/ItemMapper.java:24-32 | copies id, name, description and available, and the request id (null without a request); no booking slots, no comments |
| Mappers.ToOutputItemDto | server/src/main/java/ru/practicum/shareit/item/dto/ItemMapper.java:13-22 | the item's fields and request id, plus one comment DTO per given comment, in order |
| Mappers.ToOwnerItemDto | server/src/main/java/ru/practicum/shareit/item/dto/ItemMapper.java:34-44 | slot 0 gives lastBooking and slot 1 nextBooking, each null iff its slot is null; the request id is never set; comments mapped in order |
| Mappers.ToItem | server/src/main/java/ru/practicum/shareit/item/dto/ItemMapper.java:46-53 | copies id, name, description and available, and carries no request |
| Mappers.ToItemDtos | server/src/main/java/ru/practicum/shareit/item/dto/ItemMapper.java:55-59 | one DTO per item, same length and order |
| Mappers.ItemRoundTrip | server/src/main/java/ru/practicum/shareit/item/dto/ItemMapper.java:24-53 | `toItem(toItemDto(item))` gives the item back, except its request, which `toItem` drops |
| Domain.BookingIndex | server/src/main/java/ru/practicum/shareit/booking/service/BookingServiceImpl.java:63 | `bookingRepository.findById` (also line 80): none iff no stored booking has the id, otherwise the position of the first booking with it |
| Domain.FindItem | server/src/main/java/ru/practicum/shareit/item/service/ItemServiceImpl.java:61 | `itemRepository.findById` (also lines 80 and 147, and src/main/java/ru/practicum/shareit/item/service/ItemServiceImpl.java:82 and :130): none iff no stored item has the id, otherwise a stored item with that id |
| Domain.ApplyPatch | src/main/java/ru/practicum/shareit/item/repository/InMemoryItemRepository.java:46-54 | each non-null field of the update overwrites the item's; null fields, the id, the owner and the request are unchanged |
| Domain.ApplyPatchIdempotent | src/main/java/ru/practicum/shareit/item/repository/InMemoryItemRepository.java:46-54 | applying the same update twice equals applying it once |
| Domain.EmptyPatchIsIdentity | src/main/java/ru/practicum/shareit/item/repository/InMemoryItemRepository.java:46-54 | an update whose fields are all null changes nothing |
| UserStore.EmptyIsValid | src/main/java/ru/practicum/shareit/user/repository/InMemoryUserRepository.java:14-17 | the initial repository (counter 1, empty map and set) satisfies the invariant |
| UserStore.AddUser | src/main/java/ru/practicum/shareit/user/repository/InMemoryUserRepository.java:20-31 | DuplicateEmail iff the email is in use, and nothing changes; otherwise the user gets the counter as id, the counter moves on and the email is recorded |
| UserStore.AddUserKeepsValid | src/main/java/ru/practicum/shareit/user/repository/InMemoryUserRepository.java:20-31 | adding keeps ids below the counter, the email set equal to the stored emails, and emails unique |
| UserStore.GetUserById | src/main/java/ru/practicum/shareit/user/repository/InMemoryUserRepository.java:34-40 | UserNotFound iff the id is missing; otherwise the stored user |
| UserStore.AddedUserIsFound | src/main/java/ru/practicum/shareit/user/repository/InMemoryUserRepository.java:20-40 | a user just added is returned by `getUserById` under the id it was given |
| UserStore.EditUser | src/main/java/ru/practicum/shareit/user/repository/InMemoryUserRepository.java:43-60 | a new name is written even when the email change is then refused. DuplicateEmail iff the new email differs from the user's own and is in use. On success the old email is swapped for the new one in the set; other users are untouched |
| UserStore.EditUserKeepsValid | src/main/java/ru/practicum/shareit/user/repository/InMemoryUserRepository.java:43-60 | editing keeps the invariant, whichever way the email check goes |
| UserStore.DeleteUser | src/main/java/ru/practicum/shareit/user/repository/InMemoryUserRepository.java:63-72 | UserNotFound iff the id is missing; otherwise exactly that user and its email are removed |
| UserStore.DeleteUserKeepsValid | src/main/java/ru/practicum/shareit/user/repository/InMemoryUserRepository.java:63-72 | deleting keeps the invariant |
| UserStore.DeletedEmailIsFree | src/main/java/ru/practicum/shareit/user/repository/InMemoryUserRepository.java:63-72 | after a delete, the freed email can be registered again |
| ItemStore.AddItem | src/main/java/ru/practicum/shareit/item/repository/InMemoryItemRepository.java:27-37 | UserNotFound iff the owner is unknown, with nothing changed; otherwise the item gets the counter as id and the owner, and the counter moves on |
| ItemStore.AddItemKeepsValid | src/main/java/ru/practicum/shareit/item/repository/InMemoryItemRepository.java:27-37 | adding keeps every item stored under its own id below the counter |
| ItemStore.EditItem | src/main/java/ru/practicum/shareit/item/repository/InMemoryItemRepository.java:40-58 | NotOwner iff the caller is not the owner, with the item unchanged; otherwise only that item is replaced by its patched form |
| ItemStore.EditItemKeepsValid | src/main/java/ru/practicum/shareit/item/repository/InMemoryItemRepository.java:40-58 | editing keeps the store's invariant |
| ItemStore.GetItemById | src/main/java/ru/practicum/shareit/item/repository/InMemoryItemRepository.java:61-63 | the stored item, or none iff the id is missing |
| ItemStore.AddedItemIsFound | src/main/java/ru/practicum/shareit/item/repository/InMemoryItemRepository.java:27-63 | an item just added is returned by `getItemById` under the id it was given, and is among the stored items |
| ItemStore.GetAllItems | src/main/java/ru/practicum/shareit/item/repository/InMemoryItemRepository.java:66-70 | exactly the stored items of the owner, each once |
| ItemStore.SearchItems | src/main/java/ru/practicum/shareit/item/repository/InMemoryItemRepository.java:73-82 | empty text finds nothing; otherwise exactly the stored items that are available and whose name or description contains the text ignoring case, each once |
| TextSearch.Lower | src/main/java/ru/practicum/shareit/item/repository/InMemoryItemRepository.java:79-80 | `toLowerCase`, ASCII only: same length, and each character lowered on its own, `A`..`Z` to `a`..`z` and every other character kept |
| TextSearch.Matches | src/main/java/ru/practicum/shareit/item/repository/InMemoryItemRepository.java:77-80 | an item matches iff it is available and the lowered text occurs, at some position, in its lowered description or its lowered name |
| TextSearch.ContainsIff | src/main/java/ru/practicum/shareit/item/repository/InMemoryItemRepository.java:79-80 | the recursive `contains` finds the text exactly when it occurs at some position |
| TextSearch.MatchIgnoresQueryCase | src/main/java/ru/practicum/shareit/item/repository/InMemoryItemRepository.java:77-81 | a text and its lower-cased form match the same items |
| TextSearch.ItemMatchesItsName | src/main/java/ru/practicum/shareit/item/repository/InMemoryItemRepository.java:77-81 | an available item matches its own name |
| ItemQueries.CommentsByItem | src/main/java/ru/practicum/shareit/item/service/ItemServiceImpl.java:83 | `commentRepository.findAllByItemId` (also lines 101 and 121): exactly the stored comments on the item, each at most as often as stored |
| ItemQueries.WithComment | server/src/main/java/ru/practicum/shareit/item/service/ItemServiceImpl.java:162 | `commentRepository.save` (also src/main/java/ru/practicum/shareit/item/service/ItemServiceImpl.java:137): the comment is appended and the comment counter moves on; users, items, bookings and the booking counter are unchanged |
| ItemQueries.ItemComments | server/src/main/java/ru/practicum/shareit/item/service/ItemServiceImpl.java:86 | exactly the item's comments, newest first, a permutation of the item's stored comments |
| ItemQueries.CommentsOfItems | server/src/main/java/ru/practicum/shareit/item/service/ItemServiceImpl.java:115-118 | exactly the comments on any of the listed items, newest first, each as often as it is stored (a permutation of the stored comments on those items) |
| ItemQueries.BatchThenPick | server/src/main/java/ru/practicum/shareit/item/service/ItemServiceImpl.java:196-203 | picking one item's comments out of the batch gives that item's comments read on their own, in the same order |
| ItemQueries.CommentsOn | server/src/main/java/ru/practicum/shareit/item/service/ItemServiceImpl.java:138 | exactly the comments on any item of the page, matched by id, none more often than stored |
| ItemQueries.PickFromStored | server/src/main/java/ru/practicum/shareit/item/service/ItemServiceImpl.java:138 | picking one item's comments out of the page's comments gives that item's comments in storage order |
| ItemQueries.SearchPage | server/src/main/java/ru/practicum/shareit/item/service/ItemServiceImpl.java:135-136 | the slice of the matching stored items, in table order, that starts at the page's first position: `size` items, or what is left, or none past the end |
| ItemQueries.SearchPagesCover | server/src/main/java/ru/practicum/shareit/item/service/ItemServiceImpl.java:135-136 | every stored item that matches is on some page |
| ItemQueries.ApprovedAndEnded | server/src/main/java/ru/practicum/shareit/item/service/ItemServiceImpl.java:150-156 | exactly the user's APPROVED bookings of the item that ended before now |
| ServerItems.EditItem | server/src/main/java/ru/practicum/shareit/item/service/ItemServiceImpl.java:60-76 | ItemNotFound iff the item is missing, NotOwner iff the caller is not its owner. Otherwise only that item is replaced by its patched form, every booking and comment of the item shows the patched form, the rest of the store is unchanged, and its DTO is returned. The monolith's `editItem` is the same code |
| ServerItems.EditedLookup | server/src/main/java/ru/practicum/shareit/item/service/ItemServiceImpl.java:60-76 | after an edit every `findById` finds what it found before, except that the edited id finds the patched item |
| ServerItems.EditItemThenFind | server/src/main/java/ru/practicum/shareit/item/service/ItemServiceImpl.java:60-76 | after an edit, `findById` finds the patched item, and the same edit again changes nothing |
| ServerItems.EditItemKeepsReferencesCurrent | server/src/main/java/ru/practicum/shareit/item/service/ItemServiceImpl.java:60-76 | an edit keeps every booking and comment showing the current rows |
| ServerItems.EditShowsOnBooking | server/src/main/java/ru/practicum/shareit/item/service/ItemServiceImpl.java:60-76 | after an edit, `getBooking` of a booking of the item answers the same callers as before and shows the patched item |
| ServerItems.SetBookings | server/src/main/java/ru/practicum/shareit/item/service/ItemServiceImpl.java:184-194 | last is null iff no summary of this item started before now, else one with the greatest start among them; next is null iff none starts after now, else one with the least start; one starting exactly now is neither; the rest of the view unchanged |
| ServerItems.SetBookingsOverBookings | server/src/main/java/ru/practicum/shareit/item/service/ItemServiceImpl.java:184-194 | the same choice stated over the bookings the summaries were made from |
| ServerItems.ApprovedOf | server/src/main/java/ru/practicum/shareit/item/service/ItemServiceImpl.java:81-82 | exactly the item's APPROVED bookings, newest first |
| ServerItems.GetItemById | server/src/main/java/ru/practicum/shareit/item/service/ItemServiceImpl.java:79-98 | ItemNotFound iff the item is missing. Otherwise the item's view with its comments newest first. The owner gets last and next chosen among the item's APPROVED bookings; for anyone else both stay null |
| ServerItems.OwnerBookings | server/src/main/java/ru/practicum/shareit/item/service/ItemServiceImpl.java:109-110 | exactly the bookings of the owner's items, any status, newest first |
| ServerItems.Owned | server/src/main/java/ru/practicum/shareit/item/service/ItemServiceImpl.java:102-107 | exactly the user's stored items, in ascending order of id, each as often as it is stored (a permutation of the user's stored items) |
| ServerItems.GetAllItems | server/src/main/java/ru/practicum/shareit/item/service/ItemServiceImpl.java:101-125 | one entry per item of the user, ascending by id. Each carries its own comments newest first, and a last and next booking chosen among all the owner's bookings |
| ServerItems.AllItemsCommentsMatchItemView | server/src/main/java/ru/practicum/shareit/item/service/ItemServiceImpl.java:115-122 | each list entry carries the same comments, in the same order, as `getItemById` shows for that item |
| ServerItems.SearchItemsAsWritten | server/src/main/java/ru/practicum/shareit/item/service/ItemServiceImpl.java:128-143 | IllegalArgument iff the page is bad, checked before the text; null or empty text gives []; otherwise one DTO per item of the page, each carrying the comments of the whole page |
| ServerItems.SearchAsWrittenMixesComments | server/src/main/java/ru/practicum/shareit/item/service/ItemServiceImpl.java:138-140 | as written, an item's DTO carries a comment about a different item on the same page |
| ServerItems.SearchAsWrittenExample | server/src/main/java/ru/practicum/shareit/item/service/ItemServiceImpl.java:138-140 | for two items named "a" and a comment on the second, the first item's DTO shows that comment |
| ServerItems.SearchItems | server/src/main/java/ru/practicum/shareit/item/service/ItemServiceImpl.java:128-143 | the corrected search: the same guards and page, each DTO with exactly its own item's comments |
| ServerItems.SearchCommentsAreOwn | server/src/main/java/ru/practicum/shareit/item/service/ItemServiceImpl.java:138-140 | in the corrected search every comment an item's DTO carries is about that item |
| ServerItems.AddCommentKeepsReferencesCurrent | server/src/main/java/ru/practicum/shareit/item/service/ItemServiceImpl.java:146-164 | the stored comment shows the current item and author, so every reference stays current |
| ServerItems.AddComment | server/src/main/java/ru/practicum/shareit/item/service/ItemServiceImpl.java:146-164 | ItemNotFound iff the item is missing, then UserNotFound iff the user is missing, then ItemNotBookedByUser iff the user has no APPROVED booking of the item that ended before now. A success stores the comment with the next id, the item, the author and now |
| ServerItems.CommentShowsOnItem | server/src/main/java/ru/practicum/shareit/item/service/ItemServiceImpl.java:146-164 | a comment just added shows on its item's view |
| MonolithItems.LastNextBookings | src/main/java/ru/practicum/shareit/item/service/ItemServiceImpl.java:152-162 | two slots, last then next, each null exactly when the repository finds no such booking |
| MonolithItems.LastSlotShown | src/main/java/ru/practicum/shareit/item/service/ItemServiceImpl.java:152-162 | the last slot summarises a started booking of the item that ends no earlier than any other started one |
| MonolithItems.NextSlotShown | src/main/java/ru/practicum/shareit/item/service/ItemServiceImpl.java:152-162 | the next slot summarises a non-REJECTED booking of the item that starts after now and no later than any other such booking |
| MonolithItems.OwnerView | src/main/java/ru/practicum/shareit/item/service/ItemServiceImpl.java:84-86 | the owner's view: the item's fields, no request id, the last and next bookings as above, and the item's comments in storage order |
| MonolithItems.GetItemById | src/main/java/ru/practicum/shareit/item/service/ItemServiceImpl.java:81-89 | ItemNotFound iff the item is missing. Everyone sees the comments in storage order. The owner also sees last and next and loses the request id; anyone else sees neither booking and keeps the request id |
| MonolithItems.GetAllItems | src/main/java/ru/practicum/shareit/item/service/ItemServiceImpl.java:92-107 | IllegalArgument iff the page is bad, checked before the user; then UserNotFound iff the user is missing. Otherwise the owner's view of each item on the page `from / size` of the user's items, at most `size` |
| MonolithItems.AllItemsAreItemViews | src/main/java/ru/practicum/shareit/item/service/ItemServiceImpl.java:100-105 | each list entry is exactly what `getItemById` shows the owner for that item |
| MonolithItems.SearchItems | src/main/java/ru/practicum/shareit/item/service/ItemServiceImpl.java:110-126 | IllegalArgument iff the page is bad, checked before the text; null or empty text gives []; otherwise one DTO per item of the page with its own comments in storage order |
| MonolithItems.SearchFindsMatches | src/main/java/ru/practicum/shareit/item/service/ItemServiceImpl.java:117-124 | every search entry is a stored, available item that matches the text, with exactly its comments |
| MonolithItems.SearchAcrossIterations | src/main/java/ru/practicum/shareit/item/service/ItemServiceImpl.java:110-126 | the monolith's search returns what the corrected server search returns |
| MonolithItems.AddCommentKeepsReferencesCurrent | src/main/java/ru/practicum/shareit/item/service/ItemServiceImpl.java:129-146 | the stored comment shows the current item and author, so every reference stays current |
| MonolithItems.AddComment | src/main/java/ru/practicum/shareit/item/service/ItemServiceImpl.java:129-146 | ItemNotFound iff the item is missing, then ItemNotBookedByUser iff there is no APPROVED booking by the user that ended before now, then UserNotFound. A success stores the comment |
| MonolithItems.CommentAppearsLast | src/main/java/ru/practicum/shareit/item/service/ItemServiceImpl.java:129-138 | after a comment is added, the item's view shows the earlier comments followed by the new one |
| MonolithItems.CommentOutcomesAcrossIterations | src/main/java/ru/practicum/shareit/item/service/ItemServiceImpl.java:129-146 | the iterations answer a comment differently iff the item exists, the user does not, and no booking entitles that user id. Then the monolith says ItemNotBookedByUser and the server UserNotFound |

## Left out

- Controllers, the gateway's clients, bean validation other than
  `isValid`, and the exception-to-HTTP-status tables: they are transport.
  JSON, logging and `System.out` are also left out.
- `UserServiceImpl`, `ItemRequestServiceImpl`, `CommentMapper` and
  `ItemRequestMapper` only orchestrate repository calls or copy fields. The
  service-level `addItem` of both trees is left out as well. It maps the
  DTO and looks the owner up, throwing UserNotFound for a missing one
  (server ItemServiceImpl.java:50, src ItemServiceImpl.java:52). With a
  request id it then looks the request up in the item-request service.
  Finally it saves the new item and returns its DTO. The monolith's
  storage-level `addItem` is `ItemStore.AddItem`.
- Editing users: `UserServiceImpl` is left out, so no modelled operation
  changes `Db.users`. The booker and author copies are therefore never
  refreshed; only item copies are.
- `getAllUsers` of the in-memory user store returns the map's values. It has
  nothing to state.
- Spring Data machinery (`PageRequest`, derived query generation, lazy
  loading): each repository call is a filter, a stable sort and a slice over
  a sequence. The server's repositories and its `searchAvailableItemsByKeyword`
  query are not part of this model. Their meaning is taken from the method
  names, and the search reuses the in-memory store's match.
- The monolith's JPA item repository is not part of this model either.
  `getAllByOwnerId` is the owner's items in storage order.
- The monolith's booking repository declares a `Pageable` parameter that its
  service never passes. The listings are modelled as the service calls
  them, unpaged.
- Clock: `LocalDateTime.now()` is read several times in one operation. One
  `now` stands for all of those reads; drift between them is not modelled.
- Ties: the sorts are stable, and `max`/`min` and `LIMIT 1` take the first
  stored candidate among equals. The database's real order among equal keys
  is not modelled.
- `toLowerCase` is ASCII-only; Unicode case mapping is not modelled.
- Concurrency: nothing is locked, and concurrent requests are not modelled.
- `ItemMapper.itemDtoWithBooking` and the `BookingState` enumeration are not
  part of this model. The view copies the item's fields, and `Unsupported`
  stands for any constant the switches do not name.
- Server `getAllItems` accepts `from` and `size` and never uses them, and it
  does not look the user up. The model does the same.
- Server `getAllItems` calls `setComments` for the whole list once per
  entry. The call is idempotent, so the model applies it once.
- UserStore.EditUser: requires the id to be stored. For a missing id `editUser` gets null from the map. With a null name and a null email it then returns null and changes nothing; otherwise it throws a NullPointerException. Neither path is modelled.
- ItemStore.EditItem: requires the item to be stored; `editItem` dereferences a missing item and throws a NullPointerException, which is not modelled.
- Mappers.ToOwnerItemDto: requires at least two slots; the source indexes slots 0 and 1 and fails on a shorter list.
- Mappers.ToItem: requires id, name, description and available to be present, because a model `Item` cannot hold a null field. The owner, which callers set right after the call, is passed in.
- ItemStore.AddItem: requires name, description and available to be present, for the same reason.
- ServerItems.SetBookings: requires every summary to be full; the summaries it receives are always built from bookings, so no null start is compared.
- MonolithBookings.AddBooking: its contract is equality with `Lifecycle.AddBooking`; the properties themselves are stated once, there.

## Findings

| source | as written | input that shows it | evidently intended | confidence | as-written member | corrected member |
|---|---|---|---|---|---|---|
| server/src/main/java/ru/practicum/shareit/item/service/ItemServiceImpl.java:138-140 | the comments are read once for the whole page (`findByItemIn(items)`), and every item's DTO gets that whole list | two available items named "a" and one comment on the second; a search for "a" puts that comment on the first item's DTO | each DTO carries only the comments about its own item, as `getItemById`, the list operation and the monolith's search do | not executed | ServerItems.SearchItemsAsWritten, ServerItems.SearchAsWrittenMixesComments, ServerItems.SearchAsWrittenExample | ServerItems.SearchItems, ServerItems.SearchCommentsAreOwn |

=== FILE: booking_queries.dfy ===
/**
  The booking repository queries as filter-then-sort over the stored
  bookings. A query selects the bookings of one booker or of one owner's
  items, keeps those that satisfy a time/status condition, and orders them
  by start, newest first (`OrderByStartDesc`, `order by b.start desc`).
 */
module BookingQueries {
  import opened Domain
  import opened Seqs

  /** Whose bookings a query reads: `findByBooker_Id…`, `findByItem_Owner_Id…`
      or `findByItem_Id…`. */
  datatype Side = ByBooker(userId: int) | ByOwner(userId: int) | ByItem(itemId: int)

  /** The time/status conditions that occur in the repository method names
      and @Query texts. */
  datatype Cond =
    | Everything                      // no condition
    | StatusIs(status: Status)        // …AndStatus / b.status = ?
    | EndBefore                       // …AndEndBefore / b.end < ?
    | StartAfter                      // …AndStartAfter / b.start > ?
    | StartBeforeEndAfter             // …AndStartBeforeAndEndAfter
    | StartAfterWithStatus(s: Status) // …AndStartIsAfterAndStatusIs / b.start > ? and b.status = ?
    | NowBetween                      // ? between b.start and b.end

  predicate Belongs(side: Side, b: Booking) {
    match side
    case ByBooker(u) => b.booker.id == u
    case ByOwner(u) => OwnerOf(b) == u
    case ByItem(i) => b.item.id == i
  }

  predicate Holds(c: Cond, b: Booking, now: int) {
    match c
    case Everything => true
    case StatusIs(s) => b.status == s
    case EndBefore => b.end < now
    case StartAfter => b.start > now
    case StartBeforeEndAfter => b.start < now && b.end > now
    case StartAfterWithStatus(s) => b.start > now && b.status == s
    case NowBetween => b.start <= now <= b.end
  }

  /** The sort key of `OrderByStartDesc`. */
  function NegStart(b: Booking): int {
    -b.start
  }

  /** Ordered by start, newest first. */
  predicate StartDescending(bs: seq<Booking>) {
    forall i, j :: 0 <= i < j < |bs| ==> bs[i].start >= bs[j].start
  }

  /** Stable sort by start descending; bookings with equal start keep their
      storage order. */
  function NewestFirst(bs: seq<Booking>): (r: seq<Booking>)
    ensures StartDescending(r)
    ensures multiset(r) == multiset(bs)
    ensures |r| == |bs|
  {
    var r := SortBy(bs, NegStart);
    assert forall i, j :: 0 <= i < j < |r| ==> NegStart(r[i]) <= NegStart(r[j]);
    r
  }

  /** Sorting bookings that are already newest first changes nothing: the
      re-sort of a repository page is a no-op. */
  lemma NewestFirstOfSorted(bs: seq<Booking>)
    requires StartDescending(bs)
    ensures NewestFirst(bs) == bs
  {
    assert Sorted(bs, NegStart);
    SortOfSorted(bs, NegStart);
  }

  /** One repository query: the bookings of `side` that satisfy `c`, newest
      first. Nothing is returned more often than it is stored. */
  function Query(bs: seq<Booking>, side: Side, c: Cond, now: int): (r: seq<Booking>)
    ensures StartDescending(r)
    ensures forall b :: b in r <==> b in bs && Belongs(side, b) && Holds(c, b, now)
    ensures multiset(r) <= multiset(bs)
  {
    var p := (b: Booking) => Belongs(side, b) && Holds(c, b, now);
    var selected := Filter(bs, p);
    var r := NewestFirst(selected);
    assert forall b :: b in r <==> b in selected by {
      forall b ensures b in r <==> b in selected {
        assert b in r <==> b in multiset(r);
        assert b in selected <==> b in multiset(selected);
      }
    }
    assert forall b :: b in selected <==> b in bs && p(b);
    r
  }

  /** A page of a newest-first result is newest first and holds only
      bookings of that result. */
  lemma PageKeepsOrder(q: seq<Booking>, from: int, size: int)
    requires from >= 0 && size > 0
    requires StartDescending(q)
    ensures StartDescending(PageOf(q, from, size))
    ensures forall b :: b in PageOf(q, from, size) ==> b in q
  {
    assert Sorted(q, NegStart);
    PageOfSorted(q, from, size, NegStart);
    var r := PageOf(q, from, size);
    assert forall i, j :: 0 <= i < j < |r| ==> NegStart(r[i]) <= NegStart(r[j]);
  }
}

=== FILE: booking_repository.dfy ===
/**
  The monolith's BookingRepository: the derived booker queries, the @Query
  texts over the bookings of an owner's items, the last and next booking of
  an item, and the comment-eligibility query. Every query is a filter over
  the stored bookings; the list queries are then ordered newest first.
 */
module BookingRepository {
  import opened Wrappers
  import opened Domain
  import opened Seqs
  import opened BookingQueries

  /** The derived query the monolith's `getAllUsersBookings` calls for each
      state; `None` for a state its switch does not name. */
  function BookerCond(state: BookingState): (c: Option<Cond>)
    ensures c.None? <==> state == BookingState.Unsupported
    ensures c.Some? ==> forall b: Booking, now: int :: Holds(c.value, b, now) <==>
              match state
              case All => true
              case Waiting => b.start > now && b.status == Status.Waiting
              case Rejected => b.status == Status.Rejected
              case Current => b.end > now && b.start < now
              case Past => b.end < now
              case Future => b.start > now
              case Unsupported => false
  {
    match state
    case All => Some(Everything)
    case Waiting => Some(StartAfterWithStatus(Status.Waiting))
    case Rejected => Some(StatusIs(Status.Rejected))
    case Current => Some(StartBeforeEndAfter)
    case Past => Some(EndBefore)
    case Future => Some(StartAfter)
    case Unsupported => None
  }

  /** The @Query the monolith's `getAllUsersItemsBookings` calls for each
      state; `None` for a state its switch does not name. CURRENT is
      `now between start and end`, which includes both ends. FUTURE is called
      with status APPROVED, a parameter its query text never uses, so it
      selects bookings of every status. */
  function OwnerCond(state: BookingState): (c: Option<Cond>)
    ensures c.None? <==> state == BookingState.Unsupported
    ensures c.Some? ==> forall b: Booking, now: int :: Holds(c.value, b, now) <==>
              match state
              case All => true
              case Waiting => b.start > now && b.status == Status.Waiting
              case Rejected => b.status == Status.Rejected
              case Current => b.start <= now <= b.end
              case Past => b.end < now
              case Future => b.start > now
              case Unsupported => false
  {
    match state
    case All => Some(Everything)
    case Waiting => Some(StartAfterWithStatus(Status.Waiting))
    case Rejected => Some(StatusIs(Status.Rejected))
    case Current => Some(NowBetween)
    case Past => Some(EndBefore)
    case Future => Some(StartAfter)
    case Unsupported => None
  }

  function StartOf(b: Booking): int {
    b.start
  }

  function EndOf(b: Booking): int {
    b.end
  }

  /** `getLastItemBooking`: among the item's bookings of any status that
      started before now, the one that ends last (the first stored one when
      several end together); none when no booking of the item has started. */
  function LastItemBooking(bs: seq<Booking>, itemId: int, now: int): (r: Option<Booking>)
    ensures r.None? <==> forall b :: b in bs && b.item.id == itemId ==> b.start >= now
    ensures r.Some? ==> r.value in bs && r.value.item.id == itemId && r.value.start < now
    ensures r.Some? ==> forall b :: b in bs && b.item.id == itemId && b.start < now ==> b.end <= r.value.end
  {
    var started := Filter(bs, (b: Booking) => b.item.id == itemId && b.start < now);
    MaxBy(started, EndOf)
  }

  /** `getNextItemBooking`: among the item's bookings that are not REJECTED
      and start after now, the one that starts first; none when there is no
      such booking. */
  function NextItemBooking(bs: seq<Booking>, itemId: int, now: int): (r: Option<Booking>)
    ensures r.None? <==> forall b :: b in bs && b.item.id == itemId && b.status != Status.Rejected ==> b.start <= now
    ensures r.Some? ==> r.value in bs && r.value.item.id == itemId && r.value.start > now
    ensures r.Some? ==> r.value.status != Status.Rejected
    ensures r.Some? ==> forall b :: b in bs && b.item.id == itemId && b.status != Status.Rejected && b.start > now ==>
                           r.value.start <= b.start
  {
    var upcoming := Filter(bs, (b: Booking) => b.status != Status.Rejected && b.item.id == itemId && b.start > now);
    MinBy(upcoming, StartOf)
  }

  /** `findAllByItemAndBookerIdAndStatusIsAndEndIsBefore`: the bookings of
      the item by the booker with the given status that ended before now, in
      storage order. */
  function BookedAndEnded(bs: seq<Booking>, itemId: int, bookerId: int, status: Status, now: int): (r: seq<Booking>)
    ensures forall b :: b in r <==> b in bs && b.item.id == itemId && b.booker.id == bookerId && b.status == status && b.end < now
    ensures multiset(r) <= multiset(bs)
  {
    Filter(bs, (b: Booking) => b.item.id == itemId && b.booker.id == bookerId && b.status == status && b.end < now)
  }
}

=== FILE: domain.dfy ===
/**
  Entities shared by both iterations of the ShareIt service: users, items,
  bookings and comments, the error kinds the services raise, and the store
  that stands in for the JPA repositories.

  Timestamps are integers. A booking's `item` and `booker` and a comment's
  `item` and `author` hold the referenced rows by value; every save of an
  item refreshes the copies, so that they read as JPA entity references do
  (`ReferencesCurrent`).
 */
module Domain {
  import opened Wrappers

  /** Why a BookingDateException was raised, one constructor per check. */
  datatype DateProblem = StartAfterEnd | NotInFuture | SameInstant

  /** The exception classes the services throw. */
  datatype Error =
    | BookingDate(problem: DateProblem)
    | ItemNotFound
    | ItemIsBooked
    | NotOwner
    | UserNotFound
    | BookingNotFound
    | IllegalArgument
    | StateNotFound
    | ItemNotBookedByUser
    | DuplicateEmail

  /** Either a value or the exception an operation throws. */
  datatype Result<+T> = Ok(value: T) | Err(error: Error)

  /** BookingStatus: the lifecycle state stored with each booking. */
  datatype Status = Waiting | Approved | Rejected

  /** BookingState: the filter token of the list operations. `Unsupported`
      stands for any further constant of the enumeration. */
  datatype BookingState = All | Current | Past | Future | Waiting | Rejected | Unsupported

  datatype User = User(id: int, name: string, email: string)

  datatype Item = Item(
    id: int,
    name: string,
    description: string,
    available: bool,
    ownerId: int,
    requestId: Option<int>)

  datatype Booking = Booking(
    id: int,
    start: int,
    end: int,
    item: Item,
    booker: User,
    status: Status)

  datatype Comment = Comment(id: int, text: string, item: Item, author: User, created: int)

  /** The JPA repositories as one value: users by id, items, bookings and
      comments in storage order, and the identity counters of bookings and
      comments. */
  datatype Db = Db(
    users: map<int, User>,
    items: seq<Item>,
    bookings: seq<Booking>,
    comments: seq<Comment>,
    nextBookingId: int,
    nextCommentId: int)

  /** The owner of the item a booking is for. */
  function OwnerOf(b: Booking): int {
    b.item.ownerId
  }

  /** The sort key of `Comparator.comparing(getId)` and the key `findById`
      looks items up by. */
  function IdOf(it: Item): int {
    it.id
  }

  /** The key `findById` looks bookings up by. */
  function BookingIdOf(b: Booking): int {
    b.id
  }

  /** Position of the first element whose key is `id`: what `findById` finds
      in a table scanned in insertion order. */
  function IndexOf<T>(s: seq<T>, key: T -> int, id: int): (r: Option<nat>)
    ensures r.Some? ==> r.value < |s| && key(s[r.value]) == id
    ensures r.Some? ==> forall j :: 0 <= j < r.value ==> key(s[j]) != id
    ensures r.None? <==> forall j :: 0 <= j < |s| ==> key(s[j]) != id
  {
    if |s| == 0 then None
    else if key(s[0]) == id then Some(0)
    else match IndexOf(s[1..], key, id)
      case None => None
      case Some(k) => Some(k + 1)
  }

  /** Two tables with the same key at every position are searched alike:
      rewriting a row without changing its key moves no lookup. */
  lemma SameKeysSameIndex<T>(s: seq<T>, t: seq<T>, key: T -> int, id: int)
    requires |s| == |t|
    requires forall j :: 0 <= j < |s| ==> key(s[j]) == key(t[j])
    ensures IndexOf(s, key, id) == IndexOf(t, key, id)
  {
    var a := IndexOf(s, key, id);
    var b := IndexOf(t, key, id);
    if a.Some? {
      assert key(t[a.value]) == id;
      assert key(s[b.value]) == id;
    }
  }

  /** Position of the first item with the given id (`findById`). */
  function ItemIndex(items: seq<Item>, id: int): (r: Option<nat>)
    ensures r.Some? ==> r.value < |items| && items[r.value].id == id
    ensures r.Some? ==> forall j :: 0 <= j < r.value ==> items[j].id != id
    ensures r.None? <==> forall j :: 0 <= j < |items| ==> items[j].id != id
  {
    IndexOf(items, IdOf, id)
  }

  /** Position of the first booking with the given id (`findById`). */
  function BookingIndex(bookings: seq<Booking>, id: int): (r: Option<nat>)
    ensures r.Some? ==> r.value < |bookings| && bookings[r.value].id == id
    ensures r.Some? ==> forall j :: 0 <= j < r.value ==> bookings[j].id != id
    ensures r.None? <==> forall j :: 0 <= j < |bookings| ==> bookings[j].id != id
  {
    IndexOf(bookings, BookingIdOf, id)
  }

  /** Replacing an item by one with the same id moves no item lookup. */
  lemma ItemIndexAfterUpdate(items: seq<Item>, k: nat, it: Item, id: int)
    requires k < |items| && it.id == items[k].id
    ensures ItemIndex(items[k := it], id) == ItemIndex(items, id)
  {
    SameKeysSameIndex(items[k := it], items, IdOf, id);
  }

  /** Replacing a booking by one with the same id moves no booking lookup. */
  lemma BookingIndexAfterUpdate(bs: seq<Booking>, k: nat, b: Booking, id: int)
    requires k < |bs| && b.id == bs[k].id
    ensures BookingIndex(bs[k := b], id) == BookingIndex(bs, id)
  {
    SameKeysSameIndex(bs[k := b], bs, BookingIdOf, id);
  }

  /** The stored item with the given id, if any. */
  function FindItem(items: seq<Item>, id: int): (r: Option<Item>)
    ensures r.Some? ==> r.value in items && r.value.id == id
    ensures r.None? <==> forall it :: it in items ==> it.id != id
  {
    match ItemIndex(items, id)
    case None => None
    case Some(k) => Some(items[k])
  }

  // ---------------------------------------------------------------- references

  /** The rows of a table that refer to items, as their entity references
      show them once `item` is saved: every row whose item has that id sees
      the saved item, the others are untouched. */
  function Refresh<T>(s: seq<T>, itemOf: T -> Item, withItem: (T, Item) -> T, item: Item): (r: seq<T>)
    ensures |r| == |s|
    ensures forall j :: 0 <= j < |s| ==>
              r[j] == (if itemOf(s[j]).id == item.id then withItem(s[j], item) else s[j])
  {
    if |s| == 0 then []
    else [if itemOf(s[0]).id == item.id then withItem(s[0], item) else s[0]]
         + Refresh(s[1..], itemOf, withItem, item)
  }

  function BookingItem(b: Booking): Item {
    b.item
  }

  function WithBookingItem(b: Booking, item: Item): Booking {
    b.(item := item)
  }

  function CommentItem(c: Comment): Item {
    c.item
  }

  function WithCommentItem(c: Comment, item: Item): Comment {
    c.(item := item)
  }

  /** The bookings once `item` is saved. */
  function RefreshBookings(bs: seq<Booking>, item: Item): (r: seq<Booking>)
    ensures |r| == |bs|
    ensures forall j :: 0 <= j < |bs| ==>
              r[j] == (if bs[j].item.id == item.id then bs[j].(item := item) else bs[j])
  {
    Refresh(bs, BookingItem, WithBookingItem, item)
  }

  /** The comments once `item` is saved. */
  function RefreshComments(cs: seq<Comment>, item: Item): (r: seq<Comment>)
    ensures |r| == |cs|
    ensures forall j :: 0 <= j < |cs| ==>
              r[j] == (if cs[j].item.id == item.id then cs[j].(item := item) else cs[j])
  {
    Refresh(cs, CommentItem, WithCommentItem, item)
  }

  /** Saving the same row twice shows the same as saving it once. */
  lemma RefreshTwice(bs: seq<Booking>, cs: seq<Comment>, item: Item)
    ensures RefreshBookings(RefreshBookings(bs, item), item) == RefreshBookings(bs, item)
    ensures RefreshComments(RefreshComments(cs, item), item) == RefreshComments(cs, item)
  {
  }

  /** The booking shows the stored rows it refers to: its item is what
      `findById` returns for the item's id, its booker is the stored user. */
  predicate BookingCurrent(db: Db, b: Booking) {
    FindItem(db.items, b.item.id) == Some(b.item) && b.booker.id in db.users && db.users[b.booker.id] == b.booker
  }

  /** The comment shows the stored item and the stored author. */
  predicate CommentCurrent(db: Db, c: Comment) {
    FindItem(db.items, c.item.id) == Some(c.item) && c.author.id in db.users && db.users[c.author.id] == c.author
  }

  /** What JPA entity references guarantee by construction: every user is
      stored under its own id, and every booking and comment shows the
      current rows of its item and its user. */
  predicate ReferencesCurrent(db: Db) {
    && (forall id :: id in db.users ==> db.users[id].id == id)
    && (forall b :: b in db.bookings ==> BookingCurrent(db, b))
    && (forall c :: c in db.comments ==> CommentCurrent(db, c))
  }

  /** Every stored booking's id was handed out before the counter's current
      value, so the next id is fresh. */
  predicate BookingIdsFresh(db: Db) {
    forall b :: b in db.bookings ==> b.id < db.nextBookingId
  }

  /** The partial update of `editItem`: every present field overwrites the
      item's value, an absent (null) one leaves it alone. */
  function ApplyPatch(item: Item, name: Option<string>, description: Option<string>, available: Option<bool>): (r: Item)
    ensures r.id == item.id && r.ownerId == item.ownerId && r.requestId == item.requestId
    ensures r.name == (if name.Some? then name.value else item.name)
    ensures r.description == (if description.Some? then description.value else item.description)
    ensures r.available == (if available.Some? then available.value else item.available)
  {
    var n := if name.Some? then item.(name := name.value) else item;
    var d := if description.Some? then n.(description := description.value) else n;
    if available.Some? then d.(available := available.value) else d
  }

  /** Applying the same partial update twice is the same as applying it once. */
  lemma ApplyPatchIdempotent(item: Item, name: Option<string>, description: Option<string>, available: Option<bool>)
    ensures ApplyPatch(ApplyPatch(item, name, description, available), name, description, available)
         == ApplyPatch(item, name, description, available)
  {
  }

  /** An update with every field null changes nothing. */
  lemma EmptyPatchIsIdentity(item: Item)
    ensures ApplyPatch(item, None, None, None) == item
  {
  }
}

=== FILE: gateway.dfy ===
/**
  The gateway's EndAfterStartValidator, which vets a booking request before
  it reaches the server. Either time may be missing (null).
 */
module Gateway {
  import opened Wrappers
  import opened Domain
  import Lifecycle

  /** `isValid`: both times present and the start strictly before the end. */
  function IsValid(start: Option<int>, end: Option<int>): (r: bool)
    ensures start.None? ==> !r
    ensures end.None? ==> !r
    ensures start.Some? && end.Some? && start.value == end.value ==> !r
    ensures start.Some? && end.Some? && start.value > end.value ==> !r
    ensures r <==> start.Some? && end.Some? && start.value < end.value
  {
    start.Some? && end.Some? && start.value < end.value
  }

  /** A request the gateway lets through can fail the server's date checks
      only because it lies in the past: the order check and the equal-times
      check never fire, and the window is accepted exactly when it does not
      start before now. */
  lemma GatewayLeavesOnlyThePast(start: int, end: int, now: int)
    requires IsValid(Some(start), Some(end))
    ensures Lifecycle.CheckDates(start, end, now) != Some(StartAfterEnd)
    ensures Lifecycle.CheckDates(start, end, now) != Some(SameInstant)
    ensures Lifecycle.CheckDates(start, end, now).None? <==> now <= start
  {
  }
}

=== FILE: item_queries.dfy ===
/**
  The comment, item and booking reads of the item services of both
  iterations, as filters and stable sorts over the stored sequences: the
  comments of one item or of several, with or without the newest-first
  order; the owner's items; one page of the keyword search; and the
  bookings that let a user comment on an item.
 */
module ItemQueries {
  import opened Wrappers
  import opened Domain
  import opened Seqs
  import opened TextSearch

  // ---------------------------------------------------------------- comments

  /** The comment is about the item with this id. */
  function OfItem(itemId: int): Comment -> bool {
    (c: Comment) => c.item.id == itemId
  }

  /** The comment is about one of the items with these ids. */
  function OfItems(ids: seq<int>): Comment -> bool {
    (c: Comment) => c.item.id in ids
  }

  /** The sort key of `OrderByCreatedDesc`. */
  function NegCreated(c: Comment): int {
    -c.created
  }

  predicate NewestCommentsFirst(cs: seq<Comment>) {
    forall i, j :: 0 <= i < j < |cs| ==> cs[i].created >= cs[j].created
  }

  /** The ids of a list of items, in order. */
  function Ids(items: seq<Item>): (ids: seq<int>)
    ensures |ids| == |items|
    ensures forall k :: 0 <= k < |items| ==> ids[k] == items[k].id
  {
    if |items| == 0 then [] else [items[0].id] + Ids(items[1..])
  }

  /** `findAllByItemId`: the item's comments in storage order. */
  function CommentsByItem(cs: seq<Comment>, itemId: int): (r: seq<Comment>)
    ensures forall c :: c in r <==> c in cs && c.item.id == itemId
    ensures multiset(r) <= multiset(cs)
  {
    Filter(cs, OfItem(itemId))
  }

  /** `findByItem_IdOrderByCreatedDesc`: the item's comments, newest first;
      comments created at the same time keep their storage order. */
  function ItemComments(cs: seq<Comment>, itemId: int): (r: seq<Comment>)
    ensures forall c :: c in r <==> c in cs && c.item.id == itemId
    ensures NewestCommentsFirst(r)
    ensures multiset(r) == multiset(CommentsByItem(cs, itemId))
  {
    var r := SortBy(CommentsByItem(cs, itemId), NegCreated);
    SortByMembers(CommentsByItem(cs, itemId), NegCreated);
    assert forall i, j :: 0 <= i < j < |r| ==> NegCreated(r[i]) <= NegCreated(r[j]);
    r
  }

  /** `findAllByItemIdInOrderByCreatedDesc`: the comments on any of the
      items, newest first. */
  function CommentsOfItems(cs: seq<Comment>, ids: seq<int>): (r: seq<Comment>)
    ensures forall c :: c in r <==> c in cs && c.item.id in ids
    ensures NewestCommentsFirst(r)
    ensures multiset(r) == multiset(Filter(cs, OfItems(ids)))
  {
    var r := SortBy(Filter(cs, OfItems(ids)), NegCreated);
    SortByMembers(Filter(cs, OfItems(ids)), NegCreated);
    assert forall i, j :: 0 <= i < j < |r| ==> NegCreated(r[i]) <= NegCreated(r[j]);
    r
  }

  /** `findByItemIn`: the comments on any of the items, in storage order. An
      item is matched by its id, as entities are. */
  function CommentsOn(cs: seq<Comment>, items: seq<Item>): (r: seq<Comment>)
    ensures forall c :: c in r <==> c in cs && exists it :: it in items && it.id == c.item.id
    ensures multiset(r) <= multiset(cs)
  {
    var ids := Ids(items);
    assert forall c: Comment :: c.item.id in ids <==> exists it :: it in items && it.id == c.item.id by {
      forall c: Comment ensures c.item.id in ids <==> exists it :: it in items && it.id == c.item.id {
        if c.item.id in ids {
          var k :| 0 <= k < |ids| && ids[k] == c.item.id;
          assert items[k] in items;
        }
        if exists it :: it in items && it.id == c.item.id {
          var it :| it in items && it.id == c.item.id;
          var k :| 0 <= k < |items| && items[k] == it;
          assert ids[k] == c.item.id;
        }
      }
    }
    Filter(cs, OfItems(ids))
  }

  /** Picking one item's comments out of a newest-first batch read for
      several items gives that item's comments read on their own, newest
      first, in the same order. */
  lemma BatchThenPick(cs: seq<Comment>, ids: seq<int>, itemId: int)
    requires itemId in ids
    ensures Filter(CommentsOfItems(cs, ids), OfItem(itemId)) == ItemComments(cs, itemId)
  {
    FilterSortBy(Filter(cs, OfItems(ids)), NegCreated, OfItem(itemId));
    FilterNarrower(cs, OfItems(ids), OfItem(itemId));
  }

  /** Picking one item's comments out of the comments on several items, in
      storage order, gives that item's comments read on their own. */
  lemma PickFromStored(cs: seq<Comment>, items: seq<Item>, itemId: int)
    requires exists it :: it in items && it.id == itemId
    ensures Filter(CommentsOn(cs, items), OfItem(itemId)) == CommentsByItem(cs, itemId)
  {
    var it :| it in items && it.id == itemId;
    var k :| 0 <= k < |items| && items[k] == it;
    assert Ids(items)[k] == itemId;
    FilterNarrower(cs, OfItems(Ids(items)), OfItem(itemId));
  }

  // ---------------------------------------------------------------- items

  /** The item belongs to this user. */
  function OwnedBy(userId: int): Item -> bool {
    (it: Item) => it.ownerId == userId
  }

  /** No two stored items share an id, as the table's primary key keeps it. */
  predicate UniqueIds(items: seq<Item>) {
    forall i, j :: 0 <= i < j < |items| ==> items[i].id != items[j].id
  }

  /** With unique ids, looking a stored item up by its id finds it. */
  lemma FindStored(items: seq<Item>, it: Item)
    requires UniqueIds(items) && it in items
    ensures FindItem(items, it.id) == Some(it)
  {
    var k :| 0 <= k < |items| && items[k] == it;
    var f := ItemIndex(items, it.id).value;
    assert f <= k && items[f].id == items[k].id;
  }

  function Matching(text: string): Item -> bool {
    (it: Item) => Matches(it, text)
  }

  /** `searchAvailableItemsByKeyword` with the page `PageRequest.of(from /
      size, size)`: the slice of the matching stored items, in table order,
      that starts at the page's first position and holds `size` items, or
      what is left of them, or none past their end. */
  function SearchPage(items: seq<Item>, text: string, from: int, size: int): (r: seq<Item>)
    requires from >= 0 && size > 0
    ensures |r| <= size
    ensures forall it :: it in r ==> it in items && Matches(it, text)
    ensures var found := Filter(items, Matching(text));
            var lo := PageStart(from, size);
            && (lo >= |found| ==> r == [])
            && (lo < |found| ==> |r| == (if |found| - lo < size then |found| - lo else size))
            && forall k :: 0 <= k < |r| ==> r[k] == found[lo + k]
  {
    var found := Filter(items, Matching(text));
    var r := PageOf(found, from, size);
    assert forall it :: it in r ==> it in found by {
      forall it | it in r ensures it in found {
        var k :| 0 <= k < |r| && r[k] == it;
      }
    }
    r
  }

  /** Every stored item that matches the text is found on some page. */
  lemma SearchPagesCover(items: seq<Item>, text: string, size: int, it: Item)
    requires size > 0
    requires it in items && Matches(it, text)
    ensures exists from :: 0 <= from && it in SearchPage(items, text, from, size)
  {
    var found := Filter(items, Matching(text));
    var i :| 0 <= i < |found| && found[i] == it;
    PageAtPosition(found, i, size);
    assert it in SearchPage(items, text, i, size);
  }

  // ---------------------------------------------------------------- bookings

  /** The booking lets `userId` comment on `itemId`: it is that user's
      APPROVED booking of that item and it ended before now. */
  predicate Entitles(b: Booking, itemId: int, userId: int, now: int) {
    b.item.id == itemId && b.booker.id == userId && b.status == Status.Approved && b.end < now
  }

  /** `findAllByItemIdAndBookerIdAndStatus(itemId, userId, APPROVED)`
      followed by the filter on the end: the bookings that entitle the user
      to comment on the item. */
  function ApprovedAndEnded(bs: seq<Booking>, itemId: int, userId: int, now: int): (r: seq<Booking>)
    ensures forall b :: b in r <==> b in bs && Entitles(b, itemId, userId, now)
  {
    var approved := Filter(bs, (b: Booking) => b.item.id == itemId && b.booker.id == userId && b.status == Status.Approved);
    Filter(approved, (b: Booking) => b.end < now)
  }

  /** The store after `commentRepository.save`: the comment is appended and
      the comment counter moves on. */
  function WithComment(db: Db, c: Comment): (db': Db)
    ensures db'.comments == db.comments + [c] && db'.nextCommentId == db.nextCommentId + 1
    ensures db'.users == db.users && db'.items == db.items && db'.bookings == db.bookings
    ensures db'.nextBookingId == db.nextBookingId
  {
    db.(comments := db.comments + [c], nextCommentId := db.nextCommentId + 1)
  }

  /** Saving a comment that shows the current item and author keeps every
      reference in the store current. */
  lemma WithCommentKeepsReferencesCurrent(db: Db, c: Comment)
    requires ReferencesCurrent(db) && CommentCurrent(db, c)
    ensures ReferencesCurrent(WithComment(db, c))
  {
    var db' := WithComment(db, c);
    forall x | x in db'.comments
      ensures CommentCurrent(db', x)
    {
      if x != c {
        assert x in db.comments;
      }
    }
  }
}

=== FILE: item_store.dfy ===
/**
  InMemoryItemRepository of the monolith: items by id and the id counter.
  Its list operations walk the map's values; the order of that walk is a
  HashMap detail, so it is a parameter, `order`, which lists every key once.
 */
module ItemStore {
  import opened Wrappers
  import opened Domain
  import opened Mappers
  import opened TextSearch
  import UserStore

  datatype Store = Store(nextId: int, items: map<int, Item>)

  const Empty := Store(1, map[])

  /** Every item is stored under its own id, below the counter. */
  predicate Valid(s: Store) {
    && s.nextId >= 1
    && forall id :: id in s.items ==> s.items[id].id == id && 1 <= id < s.nextId
  }

  /** `order` visits every key of the store exactly once. */
  predicate IterationOrder(s: Store, order: seq<int>) {
    && (forall i :: 0 <= i < |order| ==> order[i] in s.items)
    && (forall k :: k in s.items ==> k in order)
    && (forall i, j :: 0 <= i < j < |order| ==> order[i] != order[j])
  }

  /** `addItem`: the owner is looked up first, and an unknown owner is
      UserNotFound with nothing changed; otherwise the item gets the
      counter's value as id and the owner, and the counter moves on. */
  function AddItem(s: Store, users: UserStore.Store, dto: ItemDto, userId: int): (r: Result<(Store, Item)>)
    requires dto.name.Some? && dto.description.Some? && dto.available.Some?
    ensures userId !in users.users <==> r == Err(UserNotFound)
    ensures r.Ok? ==>
              var (s', item) := r.value;
              && item.id == s.nextId && item.ownerId == users.users[userId].id
              && item.name == dto.name.value && item.description == dto.description.value
              && item.available == dto.available.value
              && s'.items == s.items[s.nextId := item]
              && s'.nextId == s.nextId + 1
  {
    match UserStore.GetUserById(users, userId)
    case Err(e) => Err(e)
    case Ok(owner) =>
      var item := ToItem(dto.(id := Some(s.nextId)), owner.id);
      Ok((Store(s.nextId + 1, s.items[item.id := item]), item))
  }

  lemma AddItemKeepsValid(s: Store, users: UserStore.Store, dto: ItemDto, userId: int)
    requires Valid(s)
    requires dto.name.Some? && dto.description.Some? && dto.available.Some?
    requires AddItem(s, users, dto, userId).Ok?
    ensures Valid(AddItem(s, users, dto, userId).value.0)
    ensures s.nextId !in s.items
  {
  }

  /** `editItem` on an existing item: anyone but the owner gets NotOwner and
      the item stays as it was; the owner's non-null fields overwrite the
      item's, and the null ones leave it alone. */
  function EditItem(s: Store, dto: ItemDto, itemId: int, userId: int): (r: Result<(Store, Item)>)
    requires itemId in s.items
    ensures s.items[itemId].ownerId != userId <==> r == Err(NotOwner)
    ensures r.Ok? ==>
              var (s', item) := r.value;
              && item == ApplyPatch(s.items[itemId], dto.name, dto.description, dto.available)
              && s'.items == s.items[itemId := item]
              && s'.nextId == s.nextId
  {
    var item := s.items[itemId];
    if item.ownerId != userId then Err(NotOwner)
    else
      var item' := ApplyPatch(item, dto.name, dto.description, dto.available);
      Ok((s.(items := s.items[itemId := item']), item'))
  }

  lemma EditItemKeepsValid(s: Store, dto: ItemDto, itemId: int, userId: int)
    requires Valid(s) && itemId in s.items
    requires EditItem(s, dto, itemId, userId).Ok?
    ensures Valid(EditItem(s, dto, itemId, userId).value.0)
  {
  }

  /** `getItemById`: the stored item, or none. */
  function GetItemById(s: Store, itemId: int): (r: Option<Item>)
    ensures r.None? <==> itemId !in s.items
    ensures r.Some? ==> r.value == s.items[itemId]
  {
    if itemId in s.items then Some(s.items[itemId]) else None
  }

  /** An item just added is found under the id it was given, and is
      listed among its owner's items. */
  lemma AddedItemIsFound(s: Store, users: UserStore.Store, dto: ItemDto, userId: int)
    requires dto.name.Some? && dto.description.Some? && dto.available.Some?
    requires AddItem(s, users, dto, userId).Ok?
    ensures var (s', item) := AddItem(s, users, dto, userId).value;
            GetItemById(s', item.id) == Some(item) && item in s'.items.Values
  {
  }

  /** `getAllItems`: the owner's items, each once. */
  method GetAllItems(s: Store, order: seq<int>, userId: int) returns (r: seq<Item>)
    requires Valid(s) && IterationOrder(s, order)
    ensures forall it :: it in r <==> it in s.items.Values && it.ownerId == userId
    ensures forall i, j :: 0 <= i < j < |r| ==> r[i].id != r[j].id
  {
    r := [];
    var i := 0;
    while i < |order|
      invariant 0 <= i <= |order|
      invariant forall it :: it in r <==> it.ownerId == userId && exists j :: 0 <= j < i && s.items[order[j]] == it
      invariant forall k :: 0 <= k < |r| ==> r[k].id in order[..i]
      invariant forall a, b :: 0 <= a < b < |r| ==> r[a].id != r[b].id
    {
      var it := s.items[order[i]];
      if it.ownerId == userId {
        assert it.id == order[i] && order[i] !in order[..i];
        r := r + [it];
      }
      assert order[..i + 1] == order[..i] + [order[i]];
      i := i + 1;
    }
    forall k | k in s.items && s.items[k].ownerId == userId ensures s.items[k] in r {
      var j :| 0 <= j < |order| && order[j] == k;
    }
  }

  /** `searchItems`: an empty text finds nothing; otherwise the available
      items whose name or description contains the text, ignoring case, each
      once. */
  method SearchItems(s: Store, order: seq<int>, text: string) returns (r: seq<Item>)
    requires Valid(s) && IterationOrder(s, order)
    ensures |text| == 0 ==> r == []
    ensures |text| > 0 ==> forall it :: it in r <==> it in s.items.Values && Matches(it, text)
    ensures forall i, j :: 0 <= i < j < |r| ==> r[i].id != r[j].id
  {
    if |text| == 0 {
      return [];
    }
    r := [];
    var i := 0;
    while i < |order|
      invariant 0 <= i <= |order|
      invariant forall it :: it in r <==> Matches(it, text) && exists j :: 0 <= j < i && s.items[order[j]] == it
      invariant forall k :: 0 <= k < |r| ==> r[k].id in order[..i]
      invariant forall a, b :: 0 <= a < b < |r| ==> r[a].id != r[b].id
    {
      var it := s.items[order[i]];
      if Matches(it, text) {
        assert it.id == order[i] && order[i] !in order[..i];
        r := r + [it];
      }
      assert order[..i + 1] == order[..i] + [order[i]];
      i := i + 1;
    }
    forall k | k in s.items && Matches(s.items[k], text) ensures s.items[k] in r {
      var j :| 0 <= j < |order| && order[j] == k;
    }
  }
}

=== FILE: lifecycle.dfy ===
/**
  The booking lifecycle shared by both iterations: creation with its
  fail-fast validation chain, the owner's approve/reject decision, and read
  authorisation. The one behavioural difference between the iterations, the
  guard of the decision, is the `Variant` parameter of `EditBooking`.
 */
module Lifecycle {
  import opened Wrappers
  import opened Domain
  import opened Mappers

  /** Which iteration's decision guard applies. */
  datatype Variant = Server | Monolith

  /** The time window passes the three date checks of `addBooking`: it is
      ordered, not empty, and starts no earlier than now. A start equal to
      `now` passes, because the check is `isBefore(now)`. */
  predicate DatesAcceptable(start: int, end: int, now: int) {
    start < end && now <= start
  }

  /** The three date checks of `addBooking`, in source order; `None` when
      all pass. */
  function CheckDates(start: int, end: int, now: int): (r: Option<DateProblem>)
    ensures r.None? <==> DatesAcceptable(start, end, now)
    ensures r == Some(StartAfterEnd) <==> start > end
    ensures r == Some(NotInFuture) <==> start <= end && (start < now || end < now)
    ensures r == Some(SameInstant) <==> start == end && now <= start
  {
    if start > end then Some(StartAfterEnd)
    else if start < now || end < now then Some(NotInFuture)
    else if start == end then Some(SameInstant)
    else None
  }

  /** The booking `addBooking` stores: a fresh id, the requested window, the
      item and booker, and status WAITING. */
  function NewBooking(db: Db, input: BookingInput, item: Item, booker: User): Booking {
    Booking(db.nextBookingId, input.start, input.end, item, booker, Status.Waiting)
  }

  /** Every check of `addBooking` passes. */
  predicate CanBook(db: Db, input: BookingInput, userId: int, now: int) {
    && DatesAcceptable(input.start, input.end, now)
    && FindItem(db.items, input.itemId).Some?
    && FindItem(db.items, input.itemId).value.available
    && FindItem(db.items, input.itemId).value.ownerId != userId
    && userId in db.users
  }

  /** `addBooking` of the server iteration: the date checks come first and
      never look at the store; then item lookup, availability, self-booking
      and booker lookup, each failing fast. A success appends one WAITING
      booking and leaves everything else alone. No overlap with other
      bookings is checked. */
  function AddBooking(db: Db, input: BookingInput, userId: int, now: int): (r: Result<(Db, BookingView)>)
    ensures !DatesAcceptable(input.start, input.end, now) ==>
              r == Err(BookingDate(CheckDates(input.start, input.end, now).value))
    ensures DatesAcceptable(input.start, input.end, now) && FindItem(db.items, input.itemId).None? ==>
              r == Err(ItemNotFound)
    ensures DatesAcceptable(input.start, input.end, now) && FindItem(db.items, input.itemId).Some? ==>
              var item := FindItem(db.items, input.itemId).value;
              && (!item.available ==> r == Err(ItemIsBooked))
              && (item.available && item.ownerId == userId ==> r == Err(NotOwner))
              && (item.available && item.ownerId != userId && userId !in db.users ==> r == Err(UserNotFound))
    ensures r.Ok? <==> CanBook(db, input, userId, now)
    ensures r.Ok? ==> |r.value.0.bookings| == |db.bookings| + 1
    ensures r.Ok? ==>
              var db' := r.value.0;
              var b := db'.bookings[|db.bookings|];
              && db'.bookings[..|db.bookings|] == db.bookings
              && b.id == db.nextBookingId && db'.nextBookingId == db.nextBookingId + 1
              && b.start == input.start && b.end == input.end
              && b.item.id == input.itemId && b.booker == db.users[userId]
              && b.status == Status.Waiting
              && r.value.1 == ToBookingView(b)
              && db'.users == db.users && db'.items == db.items && db'.comments == db.comments
  {
    match CheckDates(input.start, input.end, now)
    case Some(problem) => Err(BookingDate(problem))
    case None =>
      match FindItem(db.items, input.itemId)
      case None => Err(ItemNotFound)
      case Some(item) =>
        if !item.available then Err(ItemIsBooked)
        else if item.ownerId == userId then Err(NotOwner)
        else if userId !in db.users then Err(UserNotFound)
        else
          var b := NewBooking(db, input, item, db.users[userId]);
          var db' := db.(bookings := db.bookings + [b], nextBookingId := db.nextBookingId + 1);
          Ok((db', ToBookingView(b)))
  }

  /** A booking created by `AddBooking` carries exactly the window that
      `fromBookingInputDto` copies out of the request. */
  lemma AddBookingKeepsRequestedWindow(db: Db, input: BookingInput, userId: int, now: int)
    requires AddBooking(db, input, userId, now).Ok?
    ensures var b := AddBooking(db, input, userId, now).value.0.bookings[|db.bookings|];
            Some(b.start) == FromBookingInput(input).start && Some(b.end) == FromBookingInput(input).end
  {
  }

  /** `getBooking`: a missing booking is BookingNotFound; otherwise the
      booking is returned to its booker and to its item's owner, and to
      nobody else. */
  function GetBooking(db: Db, userId: int, bookingId: int): (r: Result<BookingView>)
    ensures BookingIndex(db.bookings, bookingId).None? <==> r == Err(BookingNotFound)
    ensures BookingIndex(db.bookings, bookingId).Some? ==>
              var b := db.bookings[BookingIndex(db.bookings, bookingId).value];
              && (r.Ok? <==> b.booker.id == userId || OwnerOf(b) == userId)
              && (r.Ok? ==> r.value == ToBookingView(b))
              && (r.Err? ==> r.error == NotOwner)
  {
    match BookingIndex(db.bookings, bookingId)
    case None => Err(BookingNotFound)
    case Some(k) =>
      var b := db.bookings[k];
      if b.booker.id == userId || OwnerOf(b) == userId then Ok(ToBookingView(b))
      else Err(NotOwner)
  }

  /** A booking just added is visible to its booker and to the item's owner,
      and to nobody else, and its view is the one `addBooking` returned. */
  lemma AddedBookingIsVisible(db: Db, input: BookingInput, userId: int, now: int, caller: int)
    requires ReferencesCurrent(db) && BookingIdsFresh(db)
    requires AddBooking(db, input, userId, now).Ok?
    ensures var (db', v) := AddBooking(db, input, userId, now).value;
            var owner := FindItem(db.items, input.itemId).value.ownerId;
            && (GetBooking(db', caller, db.nextBookingId).Ok? <==> caller == userId || caller == owner)
            && (GetBooking(db', caller, db.nextBookingId).Ok? ==> GetBooking(db', caller, db.nextBookingId).value == v)
            && (GetBooking(db', caller, db.nextBookingId).Err? ==> GetBooking(db', caller, db.nextBookingId).error == NotOwner)
  {
    var db' := AddBooking(db, input, userId, now).value.0;
    var n := |db.bookings|;
    forall j | 0 <= j < n
      ensures db'.bookings[j].id != db.nextBookingId
    {
      assert db'.bookings[j] == db.bookings[j] by {
        assert db'.bookings[..n][j] == db.bookings[j];
      }
      assert db.bookings[j] in db.bookings;
    }
    assert BookingIndex(db'.bookings, db.nextBookingId) == Some(n);
  }

  /** Adding a booking keeps the store's references current and its booking
      ids below the counter. */
  lemma AddBookingKeepsInvariants(db: Db, input: BookingInput, userId: int, now: int)
    requires ReferencesCurrent(db) && BookingIdsFresh(db)
    requires AddBooking(db, input, userId, now).Ok?
    ensures var db' := AddBooking(db, input, userId, now).value.0;
            ReferencesCurrent(db') && BookingIdsFresh(db')
  {
    var db' := AddBooking(db, input, userId, now).value.0;
    var n := |db.bookings|;
    forall x | x in db'.bookings
      ensures BookingCurrent(db', x) && x.id < db'.nextBookingId
    {
      var j :| 0 <= j < |db'.bookings| && db'.bookings[j] == x;
      if j < n {
        assert db'.bookings[..n][j] == db.bookings[j];
        assert db.bookings[j] in db.bookings;
      }
    }
  }

  /** In a store whose references are current, `getBooking` shows the stored
      item and the stored booker. */
  lemma GetBookingShowsCurrentRows(db: Db, caller: int, bookingId: int)
    requires ReferencesCurrent(db)
    requires GetBooking(db, caller, bookingId).Ok?
    ensures var v := GetBooking(db, caller, bookingId).value;
            && v.item.id.Some? && FindItem(db.items, v.item.id.value).Some?
            && v.item == ToItemDto(FindItem(db.items, v.item.id.value).value)
            && v.booker.id in db.users && v.booker == db.users[v.booker.id]
  {
    var b := db.bookings[BookingIndex(db.bookings, bookingId).value];
    assert b in db.bookings;
  }

  /** The transitions a successful decision may make. */
  predicate Allowed(v: Variant, from: Status, to: Status) {
    && to != Status.Waiting
    && match v
       case Server => from != Status.Approved
       case Monolith => from == Status.Waiting
  }

  /** The decision guard: the server refuses only an APPROVED booking, the
      monolith anything that is not WAITING. The guard lets a decision
      through exactly when some transition out of the status is allowed. */
  function Refuses(v: Variant, s: Status): (r: bool)
    ensures !r <==> exists to: Status :: Allowed(v, s, to)
  {
    assert Allowed(v, s, Status.Approved) <==> match v
      case Server => s != Status.Approved
      case Monolith => s == Status.Waiting;
    match v
    case Server => s == Status.Approved
    case Monolith => s != Status.Waiting
  }

  /** `editBooking`: BookingNotFound, then NotOwner for anyone but the item's
      owner, then ItemIsBooked when the guard refuses; otherwise the status
      becomes APPROVED or REJECTED and nothing else in the store changes. */
  function EditBooking(v: Variant, db: Db, userId: int, bookingId: int, approved: bool): (r: Result<(Db, BookingView)>)
    ensures BookingIndex(db.bookings, bookingId).None? <==> r == Err(BookingNotFound)
    ensures BookingIndex(db.bookings, bookingId).Some? ==>
              var k := BookingIndex(db.bookings, bookingId).value;
              var b := db.bookings[k];
              && (OwnerOf(b) != userId ==> r == Err(NotOwner))
              && (OwnerOf(b) == userId && Refuses(v, b.status) ==> r == Err(ItemIsBooked))
              && (r.Ok? <==> OwnerOf(b) == userId && !Refuses(v, b.status))
              && (r.Ok? ==> |r.value.0.bookings| == |db.bookings|)
              && (r.Ok? ==>
                    var b' := r.value.0.bookings[k];
                    && (forall j :: 0 <= j < |db.bookings| && j != k ==> r.value.0.bookings[j] == db.bookings[j])
                    && b' == b.(status := if approved then Status.Approved else Status.Rejected)
                    && Allowed(v, b.status, b'.status)
                    && r.value.1 == ToBookingView(b')
                    && r.value.0 == db.(bookings := r.value.0.bookings))
  {
    match BookingIndex(db.bookings, bookingId)
    case None => Err(BookingNotFound)
    case Some(k) =>
      var b := db.bookings[k];
      if OwnerOf(b) != userId then Err(NotOwner)
      else if Refuses(v, b.status) then Err(ItemIsBooked)
      else
        var b' := b.(status := if approved then Status.Approved else Status.Rejected);
        Ok((db.(bookings := db.bookings[k := b']), ToBookingView(b')))
  }

  /** A decision keeps the store's references current and its booking ids
      below the counter. */
  lemma EditBookingKeepsInvariants(v: Variant, db: Db, userId: int, bookingId: int, approved: bool)
    requires ReferencesCurrent(db) && BookingIdsFresh(db)
    requires EditBooking(v, db, userId, bookingId, approved).Ok?
    ensures var db' := EditBooking(v, db, userId, bookingId, approved).value.0;
            ReferencesCurrent(db') && BookingIdsFresh(db')
  {
    var db' := EditBooking(v, db, userId, bookingId, approved).value.0;
    forall x | x in db'.bookings
      ensures BookingCurrent(db', x) && x.id < db'.nextBookingId
    {
      var j :| 0 <= j < |db'.bookings| && db'.bookings[j] == x;
      assert db.bookings[j] in db.bookings;
    }
  }

  /** In the monolith a booking is decided at most once: after one successful
      decision every further decision on it fails, whoever asks. */
  lemma MonolithDecisionIsFinal(db: Db, userId: int, bookingId: int, approved: bool, userId2: int, approved2: bool)
    requires EditBooking(Monolith, db, userId, bookingId, approved).Ok?
    ensures EditBooking(Monolith, EditBooking(Monolith, db, userId, bookingId, approved).value.0,
                        userId2, bookingId, approved2).Err?
  {
    var k := BookingIndex(db.bookings, bookingId).value;
    var db' := EditBooking(Monolith, db, userId, bookingId, approved).value.0;
    BookingIndexAfterUpdate(db.bookings, k, db'.bookings[k], bookingId);
  }

  /** On the server an approval is final: every further decision fails. */
  lemma ServerApprovalIsFinal(db: Db, userId: int, bookingId: int, userId2: int, approved2: bool)
    requires EditBooking(Server, db, userId, bookingId, true).Ok?
    ensures EditBooking(Server, EditBooking(Server, db, userId, bookingId, true).value.0,
                        userId2, bookingId, approved2).Err?
  {
    var k := BookingIndex(db.bookings, bookingId).value;
    var db' := EditBooking(Server, db, userId, bookingId, true).value.0;
    BookingIndexAfterUpdate(db.bookings, k, db'.bookings[k], bookingId);
  }

  /** On the server a rejection is not final: the owner can still approve the
      booking afterwards, which the monolith forbids. */
  lemma ServerRejectionCanBeReversed(db: Db, userId: int, bookingId: int)
    requires EditBooking(Server, db, userId, bookingId, false).Ok?
    ensures var db' := EditBooking(Server, db, userId, bookingId, false).value.0;
            && EditBooking(Server, db', userId, bookingId, true).Ok?
            && EditBooking(Monolith, db', userId, bookingId, true).Err?
  {
    var k := BookingIndex(db.bookings, bookingId).value;
    var db' := EditBooking(Server, db, userId, bookingId, false).value.0;
    BookingIndexAfterUpdate(db.bookings, k, db'.bookings[k], bookingId);
  }

  /** The two guards agree on every booking that is WAITING or APPROVED; they
      differ only on a REJECTED one. */
  lemma GuardsDifferOnlyOnRejected(s: Status)
    ensures Refuses(Server, s) != Refuses(Monolith, s) <==> s == Status.Rejected
  {
  }
}

=== FILE: mappers.dfy ===
/**
  The transfer objects of the server iteration and the static mappers of
  BookingMapper and ItemMapper that build them. Every nullable DTO field is
  an `Option`.
 */
module Mappers {
  import opened Wrappers
  import opened Domain

  /** BookingInputDto: the body of a booking request. */
  datatype BookingInput = BookingInput(start: int, end: int, itemId: int)

  /** A Booking entity as the two-argument constructor leaves it: only the
      fields that have been set are present. */
  datatype BookingDraft = BookingDraft(
    id: Option<int>,
    start: Option<int>,
    end: Option<int>,
    item: Option<Item>,
    booker: Option<User>,
    status: Option<Status>)

  /** ItemBookingDto: the last/next booking summary shown on an item. */
  datatype ItemBookingDto = ItemBookingDto(
    id: Option<int>,
    bookerId: Option<int>,
    item: Option<Item>,
    start: Option<int>,
    end: Option<int>)

  /** ItemDto, used both for responses and as the partial update of `editItem`. */
  datatype ItemDto = ItemDto(
    id: Option<int>,
    name: Option<string>,
    description: Option<string>,
    available: Option<bool>,
    requestId: Option<int>,
    lastBooking: Option<ItemBookingDto>,
    nextBooking: Option<ItemBookingDto>,
    comments: Option<seq<CommentDto>>)

  /** CommentDto as CommentMapper.toDto fills it. */
  datatype CommentDto = CommentDto(id: int, text: string, authorName: string, item: ItemDto, created: int)

  /** BookingOutputDto: the response view of a booking. */
  datatype BookingView = BookingView(id: int, start: int, end: int, item: ItemDto, booker: User, status: Status)

  /** ItemDtoWithBooking: the item view of the server's item queries. */
  datatype ItemWithBookings = ItemWithBookings(
    id: int,
    name: string,
    description: string,
    available: bool,
    ownerId: int,
    lastBooking: Option<ItemBookingDto>,
    nextBooking: Option<ItemBookingDto>,
    comments: seq<CommentDto>)

  // ---------------------------------------------------------------- BookingMapper

  /** BookingMapper.toBookingOutputDto. */
  function ToBookingView(b: Booking): (v: BookingView)
    ensures v.id == b.id && v.start == b.start && v.end == b.end && v.status == b.status
    ensures v.booker == b.booker && v.item == ToItemDto(b.item) && v.item.id == Some(b.item.id)
  {
    BookingView(b.id, b.start, b.end, ToItemDto(b.item), b.booker, b.status)
  }

  /** BookingMapper.fromBookingInputDto: copies the two timestamps and
      nothing else. */
  function FromBookingInput(input: BookingInput): (d: BookingDraft)
    ensures d.start == Some(input.start) && d.end == Some(input.end)
    ensures d.id.None? && d.item.None? && d.booker.None? && d.status.None?
  {
    BookingDraft(None, Some(input.start), Some(input.end), None, None, None)
  }

  /** BookingMapper.toBookingOutputDtoList: one view per booking, in order. */
  function ToBookingViews(bs: seq<Booking>): (vs: seq<BookingView>)
    ensures |vs| == |bs|
    ensures forall i :: 0 <= i < |bs| ==> vs[i] == ToBookingView(bs[i])
  {
    if |bs| == 0 then [] else [ToBookingView(bs[0])] + ToBookingViews(bs[1..])
  }

  /** A summary whose every field is present, as one built from a booking. */
  predicate Full(d: ItemBookingDto) {
    d.id.Some? && d.bookerId.Some? && d.item.Some? && d.start.Some? && d.end.Some?
  }

  /** BookingMapper.toItemBookingDto: null maps to a summary with every field
      null, a booking to its id, booker id, item and times. */
  function ToItemBookingDto(b: Option<Booking>): (d: ItemBookingDto)
    ensures b.None? ==> d.id.None? && d.bookerId.None? && d.item.None? && d.start.None? && d.end.None?
    ensures b.Some? ==> Full(d)
    ensures b.Some? ==> d.id.value == b.value.id && d.bookerId.value == b.value.booker.id
    ensures b.Some? ==> d.item.value == b.value.item
    ensures b.Some? ==> d.start.value == b.value.start && d.end.value == b.value.end
  {
    match b
    case None => ItemBookingDto(None, None, None, None, None)
    case Some(bk) => ItemBookingDto(Some(bk.id), Some(bk.booker.id), Some(bk.item), Some(bk.start), Some(bk.end))
  }

  /** Summaries of a list of bookings, in order. */
  function ToItemBookingDtos(bs: seq<Booking>): (ds: seq<ItemBookingDto>)
    ensures |ds| == |bs|
    ensures forall i :: 0 <= i < |bs| ==> ds[i] == ToItemBookingDto(Some(bs[i]))
    ensures forall d :: d in ds ==> Full(d)
  {
    if |bs| == 0 then [] else [ToItemBookingDto(Some(bs[0]))] + ToItemBookingDtos(bs[1..])
  }

  // ---------------------------------------------------------------- ItemMapper

  /** ItemMapper.toItemDto: the item's own fields; no booking slots, no comments. */
  function ToItemDto(item: Item): (d: ItemDto)
    ensures d.id == Some(item.id) && d.name == Some(item.name)
    ensures d.description == Some(item.description) && d.available == Some(item.available)
    ensures d.requestId == item.requestId
    ensures d.lastBooking.None? && d.nextBooking.None? && d.comments.None?
  {
    ItemDto(Some(item.id), Some(item.name), Some(item.description), Some(item.available), item.requestId, None, None, None)
  }

  /** CommentMapper.toDto (a field-for-field copy). */
  function ToCommentDto(c: Comment): CommentDto {
    CommentDto(c.id, c.text, c.author.name, ToItemDto(c.item), c.created)
  }

  /** CommentMapper.toDtoList. */
  function ToCommentDtos(cs: seq<Comment>): (ds: seq<CommentDto>)
    ensures |ds| == |cs|
    ensures forall i :: 0 <= i < |cs| ==> ds[i] == ToCommentDto(cs[i])
  {
    if |cs| == 0 then [] else [ToCommentDto(cs[0])] + ToCommentDtos(cs[1..])
  }

  /** Mapping a list with one more comment maps the list and then that
      comment. */
  lemma ToCommentDtosAppend(cs: seq<Comment>, c: Comment)
    ensures ToCommentDtos(cs + [c]) == ToCommentDtos(cs) + [ToCommentDto(c)]
  {
    var l := ToCommentDtos(cs + [c]);
    var r := ToCommentDtos(cs) + [ToCommentDto(c)];
    assert |l| == |r|;
    forall i | 0 <= i < |l| ensures l[i] == r[i] {
      if i < |cs| {
        assert (cs + [c])[i] == cs[i];
      } else {
        assert (cs + [c])[i] == c;
      }
    }
  }

  /** ItemMapper.toOutputItemDto: the item's fields and request id plus the
      given comments, one DTO per comment. */
  function ToOutputItemDto(item: Item, comments: seq<Comment>): (d: ItemDto)
    ensures d.id == Some(item.id) && d.name == Some(item.name)
    ensures d.description == Some(item.description) && d.available == Some(item.available)
    ensures d.requestId == item.requestId
    ensures d.lastBooking.None? && d.nextBooking.None?
    ensures d.comments.Some? && |d.comments.value| == |comments|
    ensures forall i :: 0 <= i < |comments| ==> d.comments.value[i] == ToCommentDto(comments[i])
  {
    ToItemDto(item).(comments := Some(ToCommentDtos(comments)))
  }

  /** ItemMapper.toOwnerItemDto: slot 0 of `bookings` is the last booking and
      slot 1 the next one; an empty slot leaves the field null. The request id
      is never set. */
  function ToOwnerItemDto(item: Item, bookings: seq<Option<Booking>>, comments: seq<Comment>): (d: ItemDto)
    requires |bookings| >= 2
    ensures d.id == Some(item.id) && d.name == Some(item.name)
    ensures d.description == Some(item.description) && d.available == Some(item.available)
    ensures d.requestId.None?
    ensures d.lastBooking.None? <==> bookings[0].None?
    ensures d.nextBooking.None? <==> bookings[1].None?
    ensures bookings[0].Some? ==> d.lastBooking == Some(ToItemBookingDto(bookings[0]))
    ensures bookings[1].Some? ==> d.nextBooking == Some(ToItemBookingDto(bookings[1]))
    ensures d.comments == Some(ToCommentDtos(comments))
  {
    ItemDto(
      Some(item.id), Some(item.name), Some(item.description), Some(item.available), None,
      if bookings[0].None? then None else Some(ToItemBookingDto(bookings[0])),
      if bookings[1].None? then None else Some(ToItemBookingDto(bookings[1])),
      Some(ToCommentDtos(comments)))
  }

  /** ItemMapper.toItem: copies id, name, description and available. The
      constructor leaves owner and request unset; its callers set the owner
      next, so the owner is passed in here. */
  function ToItem(dto: ItemDto, ownerId: int): (item: Item)
    requires dto.id.Some? && dto.name.Some? && dto.description.Some? && dto.available.Some?
    ensures item.id == dto.id.value && item.name == dto.name.value
    ensures item.description == dto.description.value && item.available == dto.available.value
    ensures item.ownerId == ownerId && item.requestId.None?
  {
    Item(dto.id.value, dto.name.value, dto.description.value, dto.available.value, ownerId, None)
  }

  /** ItemMapper.toDtoList: one DTO per item, in order. */
  function ToItemDtos(items: seq<Item>): (ds: seq<ItemDto>)
    ensures |ds| == |items|
    ensures forall i :: 0 <= i < |items| ==> ds[i] == ToItemDto(items[i])
  {
    if |items| == 0 then [] else [ToItemDto(items[0])] + ToItemDtos(items[1..])
  }

  /** Mapping an item to its DTO and back recovers the item, except the
      request, which toItem does not carry. */
  lemma ItemRoundTrip(item: Item)
    ensures ToItem(ToItemDto(item), item.ownerId) == item.(requestId := None)
  {
  }

  /** The view of a booking and its summary agree on id, booker and times. */
  lemma ViewAndSummaryAgree(b: Booking)
    ensures ToBookingView(b).id == ToItemBookingDto(Some(b)).id.value
    ensures ToBookingView(b).booker.id == ToItemBookingDto(Some(b)).bookerId.value
    ensures ToBookingView(b).start == ToItemBookingDto(Some(b)).start.value
    ensures ToBookingView(b).end == ToItemBookingDto(Some(b)).end.value
  {
  }
}

=== FILE: monolith_bookings.dfy ===
/**
  The BookingServiceImpl of the monolith (the root `src/` tree). Its decision
  and read operations are `Lifecycle.EditBooking` with the `Monolith` guard
  and `Lifecycle.GetBooking`. What differs is here: `addBooking` looks the
  item up twice, and the list operations have no paging, reject a state the
  switch does not name, and use the repository's own conditions.
 */
module MonolithBookings {
  import opened Domain
  import opened Mappers
  import opened BookingQueries
  import opened BookingRepository
  import Lifecycle
  import ServerBookings

  /** `addBooking` of the monolith: the same chain of checks, except that the
      item is read a second time, after the booker, to be attached to the
      booking. The store does not change in between, so the second read finds
      the same item and the operation is the server's, outcome for outcome. */
  function AddBooking(db: Db, input: BookingInput, userId: int, now: int): (r: Result<(Db, BookingView)>)
    ensures r == Lifecycle.AddBooking(db, input, userId, now)
  {
    match Lifecycle.CheckDates(input.start, input.end, now)
    case Some(problem) => Err(BookingDate(problem))
    case None =>
      match FindItem(db.items, input.itemId)
      case None => Err(ItemNotFound)
      case Some(item) =>
        if !item.available then Err(ItemIsBooked)
        else if item.ownerId == userId then Err(NotOwner)
        else if userId !in db.users then Err(UserNotFound)
        else
          var booker := db.users[userId];
          match FindItem(db.items, input.itemId)
          case None => Err(ItemNotFound)
          case Some(item') =>
            var b := Lifecycle.NewBooking(db, input, item', booker);
            var db' := db.(bookings := db.bookings + [b], nextBookingId := db.nextBookingId + 1);
            Ok((db', ToBookingView(b)))
  }

  /** `getAllUsersBookings` of the monolith: an unknown user is UserNotFound,
      then a state the switch does not name is StateNotFound; otherwise every
      booking of the caller in that state, newest first, with no paging. */
  function GetAllUsersBookings(db: Db, userId: int, state: BookingState, now: int): (r: Result<seq<BookingView>>)
    ensures userId !in db.users ==> r == Err(UserNotFound)
    ensures userId in db.users && state == BookingState.Unsupported ==> r == Err(StateNotFound)
    ensures r.Ok? <==> userId in db.users && state != BookingState.Unsupported
    ensures r.Ok? ==> r.value == ToBookingViews(Query(db.bookings, ByBooker(userId), BookerCond(state).value, now))
  {
    if userId !in db.users then Err(UserNotFound)
    else match BookerCond(state)
      case None => Err(StateNotFound)
      case Some(c) => Ok(ToBookingViews(Query(db.bookings, ByBooker(userId), c, now)))
  }

  /** `getAllUsersItemsBookings` of the monolith: the same checks in the same
      order; otherwise every booking of the caller's items in that state,
      newest first, with no paging. */
  function GetAllUsersItemsBookings(db: Db, userId: int, state: BookingState, now: int): (r: Result<seq<BookingView>>)
    ensures userId !in db.users ==> r == Err(UserNotFound)
    ensures userId in db.users && state == BookingState.Unsupported ==> r == Err(StateNotFound)
    ensures r.Ok? <==> userId in db.users && state != BookingState.Unsupported
    ensures r.Ok? ==> r.value == ToBookingViews(Query(db.bookings, ByOwner(userId), OwnerCond(state).value, now))
  {
    if userId !in db.users then Err(UserNotFound)
    else match OwnerCond(state)
      case None => Err(StateNotFound)
      case Some(c) => Ok(ToBookingViews(Query(db.bookings, ByOwner(userId), c, now)))
  }

  /** Where the two iterations' filters part: the monolith's booker WAITING
      leaves out waiting bookings that have already started, its owner
      CURRENT also takes a booking that starts or ends exactly now, and its
      owner WAITING, like its booker WAITING, needs a start after now. Every
      other state selects the same bookings in both. */
  lemma FiltersAcrossIterations(b: Booking, now: int)
    ensures Holds(ServerBookings.ServerCond(BookingState.Waiting), b, now) && !Holds(BookerCond(BookingState.Waiting).value, b, now)
            <==> b.status == Status.Waiting && b.start <= now
    ensures Holds(BookerCond(BookingState.Waiting).value, b, now) ==> Holds(ServerBookings.ServerCond(BookingState.Waiting), b, now)
    ensures Holds(OwnerCond(BookingState.Waiting).value, b, now) == Holds(BookerCond(BookingState.Waiting).value, b, now)
    ensures Holds(OwnerCond(BookingState.Current).value, b, now) && !Holds(ServerBookings.ServerCond(BookingState.Current), b, now)
            <==> b.start <= now <= b.end && (b.start == now || b.end == now)
    ensures Holds(ServerBookings.ServerCond(BookingState.Current), b, now) ==> Holds(OwnerCond(BookingState.Current).value, b, now)
    ensures Holds(BookerCond(BookingState.Current).value, b, now) == Holds(ServerBookings.ServerCond(BookingState.Current), b, now)
    ensures forall s :: s in {BookingState.All, BookingState.Rejected, BookingState.Past, BookingState.Future} ==>
              Holds(BookerCond(s).value, b, now) == Holds(ServerBookings.ServerCond(s), b, now) &&
              Holds(OwnerCond(s).value, b, now) == Holds(ServerBookings.ServerCond(s), b, now)
  {
  }
}

=== FILE: monolith_items.dfy ===
/**
  ItemServiceImpl of the monolith: the item reads with the owner's last and
  next bookings, the owner's item list and the keyword search, both paged,
  and comments. Its repositories return the stored rows in storage order.
 */
module MonolithItems {
  import opened Wrappers
  import opened Domain
  import opened Seqs
  import opened Mappers
  import opened BookingRepository
  import opened TextSearch
  import opened ItemQueries
  import ServerItems

  /** `lastBooking` summarises, among the item's bookings that started
      before now, one that ends last; it is null exactly when none of them
      has started. */
  predicate ShowsLast(last: Option<ItemBookingDto>, bs: seq<Booking>, itemId: int, now: int) {
    match last
    case None => forall b :: b in bs && b.item.id == itemId ==> b.start >= now
    case Some(d) =>
      exists b :: && b in bs && b.item.id == itemId && b.start < now && d == ToItemBookingDto(Some(b))
                  && forall b' :: b' in bs && b'.item.id == itemId && b'.start < now ==> b'.end <= b.end
  }

  /** `nextBooking` summarises, among the item's bookings that are not
      REJECTED and start after now, one that starts first; it is null exactly
      when there is none. */
  predicate ShowsNext(next: Option<ItemBookingDto>, bs: seq<Booking>, itemId: int, now: int) {
    match next
    case None => forall b :: b in bs && b.item.id == itemId && b.status != Status.Rejected ==> b.start <= now
    case Some(d) =>
      exists b :: && b in bs && b.item.id == itemId && b.status != Status.Rejected && b.start > now
                  && d == ToItemBookingDto(Some(b))
                  && forall b' :: b' in bs && b'.item.id == itemId && b'.status != Status.Rejected && b'.start > now ==>
                                    b.start <= b'.start
  }

  /** `getLastNextBookings`: two slots, the last booking of the item first
      and the next one second, each empty when there is none. */
  function LastNextBookings(bs: seq<Booking>, item: Item, now: int): (slots: seq<Option<Booking>>)
    ensures |slots| == 2
    ensures slots[0].None? <==> forall b :: b in bs && b.item.id == item.id ==> b.start >= now
    ensures slots[1].None? <==> forall b :: b in bs && b.item.id == item.id && b.status != Status.Rejected ==> b.start <= now
  {
    [LastItemBooking(bs, item.id, now), NextItemBooking(bs, item.id, now)]
  }

  /** The summary of `getLastItemBooking` is what `lastBooking` shows. */
  lemma LastSlotShown(bs: seq<Booking>, itemId: int, now: int)
    ensures var l := LastItemBooking(bs, itemId, now);
            ShowsLast(if l.None? then None else Some(ToItemBookingDto(l)), bs, itemId, now)
  {
    var l := LastItemBooking(bs, itemId, now);
    if l.Some? {
      assert l.value in bs;
    }
  }

  /** The summary of `getNextItemBooking` is what `nextBooking` shows. */
  lemma NextSlotShown(bs: seq<Booking>, itemId: int, now: int)
    ensures var n := NextItemBooking(bs, itemId, now);
            ShowsNext(if n.None? then None else Some(ToItemBookingDto(n)), bs, itemId, now)
  {
    var n := NextItemBooking(bs, itemId, now);
    if n.Some? {
      assert n.value in bs;
    }
  }

  /** `toOwnerItemDto` of a stored item with its last and next bookings and
      its comments in storage order: the view its owner gets. */
  function OwnerView(db: Db, item: Item, now: int): (d: ItemDto)
    ensures d.id == Some(item.id) && d.name == Some(item.name)
    ensures d.description == Some(item.description) && d.available == Some(item.available)
    ensures d.requestId.None?
    ensures ShowsLast(d.lastBooking, db.bookings, item.id, now)
    ensures ShowsNext(d.nextBooking, db.bookings, item.id, now)
    ensures d.comments == Some(ToCommentDtos(CommentsByItem(db.comments, item.id)))
  {
    var slots := LastNextBookings(db.bookings, item, now);
    LastSlotShown(db.bookings, item.id, now);
    NextSlotShown(db.bookings, item.id, now);
    ToOwnerItemDto(item, slots, CommentsByItem(db.comments, item.id))
  }

  /** `getItemById`: an unknown item is ItemNotFound. The item's comments are
      shown to everyone, in storage order; only the owner also sees the last
      and next bookings, and loses the request id, while anyone else sees
      neither booking and keeps the request id. */
  function GetItemById(db: Db, itemId: int, userId: int, now: int): (r: Result<ItemDto>)
    ensures FindItem(db.items, itemId).None? <==> r == Err(ItemNotFound)
    ensures r.Ok? ==>
              var item := FindItem(db.items, itemId).value;
              && r.value.id == Some(itemId) && r.value.name == Some(item.name)
              && r.value.description == Some(item.description) && r.value.available == Some(item.available)
              && r.value.comments == Some(ToCommentDtos(CommentsByItem(db.comments, itemId)))
    ensures r.Ok? && FindItem(db.items, itemId).value.ownerId != userId ==>
              && r.value.lastBooking.None? && r.value.nextBooking.None?
              && r.value.requestId == FindItem(db.items, itemId).value.requestId
    ensures r.Ok? && FindItem(db.items, itemId).value.ownerId == userId ==>
              && r.value.requestId.None?
              && ShowsLast(r.value.lastBooking, db.bookings, itemId, now)
              && ShowsNext(r.value.nextBooking, db.bookings, itemId, now)
  {
    match FindItem(db.items, itemId)
    case None => Err(ItemNotFound)
    case Some(item) =>
      if item.ownerId == userId then Ok(OwnerView(db, item, now))
      else Ok(ToOutputItemDto(item, CommentsByItem(db.comments, itemId)))
  }

  /** `getAllItems`: a bad page is IllegalArgument, checked first; then an
      unknown user is UserNotFound; otherwise the owner's view of each item
      on the page of the user's items, in storage order. */
  function GetAllItems(db: Db, userId: int, from: int, size: int, now: int): (r: Result<seq<ItemDto>>)
    ensures from < 0 || size <= 0 <==> r == Err(IllegalArgument)
    ensures from >= 0 && size > 0 && userId !in db.users <==> r == Err(UserNotFound)
    ensures r.Ok? ==>
              var page := PageOf(Filter(db.items, OwnedBy(userId)), from, size);
              && |r.value| == |page| <= size
              && forall k :: 0 <= k < |page| ==>
                   page[k] in db.items && page[k].ownerId == userId && r.value[k] == OwnerView(db, page[k], now)
  {
    if from < 0 || size <= 0 then Err(IllegalArgument)
    else if userId !in db.users then Err(UserNotFound)
    else
      var page := PageOf(Filter(db.items, OwnedBy(userId)), from, size);
      assert forall k :: 0 <= k < |page| ==> page[k] in Filter(db.items, OwnedBy(userId));
      Ok(OwnerViews(db, page, now))
  }

  function OwnerViews(db: Db, items: seq<Item>, now: int): (ds: seq<ItemDto>)
    ensures |ds| == |items|
    ensures forall k :: 0 <= k < |items| ==> ds[k] == OwnerView(db, items[k], now)
  {
    if |items| == 0 then [] else [OwnerView(db, items[0], now)] + OwnerViews(db, items[1..], now)
  }

  /** With unique item ids, each entry of `getAllItems` is what `getItemById`
      shows the owner for that item. */
  lemma AllItemsAreItemViews(db: Db, userId: int, from: int, size: int, now: int, k: int)
    requires UniqueIds(db.items)
    requires GetAllItems(db, userId, from, size, now).Ok?
    requires 0 <= k < |GetAllItems(db, userId, from, size, now).value|
    ensures var page := PageOf(Filter(db.items, OwnedBy(userId)), from, size);
            GetItemById(db, page[k].id, userId, now) == Ok(GetAllItems(db, userId, from, size, now).value[k])
  {
    var page := PageOf(Filter(db.items, OwnedBy(userId)), from, size);
    FindStored(db.items, page[k]);
  }

  /** `searchItems`: a bad page is IllegalArgument, checked before the text;
      a null or empty text finds nothing; otherwise one page of the matching
      items, each with its own comments in storage order. */
  function SearchItems(db: Db, text: Option<string>, from: int, size: int): (r: Result<seq<ItemDto>>)
    ensures from < 0 || size <= 0 <==> r == Err(IllegalArgument)
    ensures r.Ok? && (text.None? || |text.value| == 0) ==> r.value == []
    ensures r.Ok? && text.Some? && |text.value| > 0 ==>
              var page := SearchPage(db.items, text.value, from, size);
              && |r.value| == |page|
              && forall k :: 0 <= k < |page| ==> r.value[k] == ToOutputItemDto(page[k], CommentsByItem(db.comments, page[k].id))
  {
    if from < 0 || size <= 0 then Err(IllegalArgument)
    else if text.None? || |text.value| == 0 then Ok([])
    else Ok(OutputViews(db, SearchPage(db.items, text.value, from, size)))
  }

  function OutputViews(db: Db, items: seq<Item>): (ds: seq<ItemDto>)
    ensures |ds| == |items|
    ensures forall k :: 0 <= k < |items| ==> ds[k] == ToOutputItemDto(items[k], CommentsByItem(db.comments, items[k].id))
  {
    if |items| == 0 then [] else
      [ToOutputItemDto(items[0], CommentsByItem(db.comments, items[0].id))] + OutputViews(db, items[1..])
  }

  /** Every entry of a search is an available item that matches the text,
      shown with exactly the comments about it. */
  lemma SearchFindsMatches(db: Db, text: string, from: int, size: int, k: int)
    requires SearchItems(db, Some(text), from, size).Ok?
    requires 0 <= k < |SearchItems(db, Some(text), from, size).value|
    ensures var e := SearchItems(db, Some(text), from, size).value[k];
            && (exists it :: it in db.items && Matches(it, text) && e.id == Some(it.id)
                             && e.comments == Some(ToCommentDtos(CommentsByItem(db.comments, it.id))))
            && e.available == Some(true)
  {
    var page := SearchPage(db.items, text, from, size);
    assert page[k] in page;
  }

  /** The monolith's search and the corrected server search return the same
      page. */
  lemma SearchAcrossIterations(db: Db, text: Option<string>, from: int, size: int)
    ensures SearchItems(db, text, from, size) == ServerItems.SearchItems(db, text, from, size)
  {
    if from >= 0 && size > 0 && text.Some? && |text.value| > 0 {
      var page := SearchPage(db.items, text.value, from, size);
      var a := SearchItems(db, text, from, size).value;
      var b := ServerItems.SearchItems(db, text, from, size).value;
      assert a == b by {
        assert |a| == |page| == |b|;
        forall k | 0 <= k < |page| ensures a[k] == b[k] {
          assert a[k] == ToOutputItemDto(page[k], CommentsByItem(db.comments, page[k].id));
        }
      }
    }
  }

  /** `addComment`: an unknown item is ItemNotFound; then a user without an
      APPROVED booking of the item that ended before now is
      ItemNotBookedByUser; then an unknown user is UserNotFound. Otherwise
      the comment is stored with the next comment id, the item, the user as
      author and now as its time, and its DTO is returned. */
  function AddComment(db: Db, text: string, itemId: int, userId: int, now: int): (r: Result<(Db, CommentDto)>)
    ensures FindItem(db.items, itemId).None? <==> r == Err(ItemNotFound)
    ensures r == Err(ItemNotBookedByUser) <==>
              && FindItem(db.items, itemId).Some?
              && forall b :: b in db.bookings ==> !Entitles(b, itemId, userId, now)
    ensures r == Err(UserNotFound) <==>
              && FindItem(db.items, itemId).Some? && userId !in db.users
              && exists b :: b in db.bookings && Entitles(b, itemId, userId, now)
    ensures r.Ok? ==>
              var (db', dto) := r.value;
              var c := Comment(db.nextCommentId, text, FindItem(db.items, itemId).value, db.users[userId], now);
              && db' == WithComment(db, c)
              && dto == ToCommentDto(c)
  {
    match FindItem(db.items, itemId)
    case None => Err(ItemNotFound)
    case Some(item) =>
      var booked := BookedAndEnded(db.bookings, itemId, userId, Status.Approved, now);
      if |booked| == 0 then Err(ItemNotBookedByUser)
      else if userId !in db.users then Err(UserNotFound)
      else
        assert booked[0] in booked;
        var c := Comment(db.nextCommentId, text, item, db.users[userId], now);
        Ok((WithComment(db, c), ToCommentDto(c)))
  }

  /** After a comment is added, the item's view shows the comments it showed
      before followed by the new one. */
  lemma CommentAppearsLast(db: Db, text: string, itemId: int, userId: int, now: int)
    requires AddComment(db, text, itemId, userId, now).Ok?
    ensures var (db', dto) := AddComment(db, text, itemId, userId, now).value;
            GetItemById(db', itemId, userId, now).value.comments.value
              == GetItemById(db, itemId, userId, now).value.comments.value + [dto]
  {
    var (db', dto) := AddComment(db, text, itemId, userId, now).value;
    var c := Comment(db.nextCommentId, text, FindItem(db.items, itemId).value, db.users[userId], now);
    FilterAppend(db.comments, c, OfItem(itemId));
    var before := CommentsByItem(db.comments, itemId);
    assert CommentsByItem(db'.comments, itemId) == before + [c];
    ToCommentDtosAppend(before, c);
  }

  /** The two iterations answer a comment differently exactly when the item
      exists, the user does not, and nobody with that id holds an entitling
      booking: the monolith checks the booking first and says
      ItemNotBookedByUser, the server checks the user first and says
      UserNotFound. */
  lemma CommentOutcomesAcrossIterations(db: Db, text: string, itemId: int, userId: int, now: int)
    ensures AddComment(db, text, itemId, userId, now) != ServerItems.AddComment(db, text, itemId, userId, now) <==>
              && FindItem(db.items, itemId).Some? && userId !in db.users
              && forall b :: b in db.bookings ==> !Entitles(b, itemId, userId, now)
    ensures AddComment(db, text, itemId, userId, now) != ServerItems.AddComment(db, text, itemId, userId, now) ==>
              && AddComment(db, text, itemId, userId, now) == Err(ItemNotBookedByUser)
              && ServerItems.AddComment(db, text, itemId, userId, now) == Err(UserNotFound)
  {
  }

  /** A new comment shows the current item and author, so the store's
      references stay current. */
  lemma AddCommentKeepsReferencesCurrent(db: Db, text: string, itemId: int, userId: int, now: int)
    requires ReferencesCurrent(db)
    requires AddComment(db, text, itemId, userId, now).Ok?
    ensures ReferencesCurrent(AddComment(db, text, itemId, userId, now).value.0)
  {
    var c := Comment(db.nextCommentId, text, FindItem(db.items, itemId).value, db.users[userId], now);
    WithCommentKeepsReferencesCurrent(db, c);
  }
}

=== FILE: seqs.dfy ===
/**
  Sequence operations the repositories and streams of the service perform:
  filtering, stable sorting by an integer key, the page slice of
  `PageRequest.of(from / size, size)`, and the first maximum or minimum that
  `Stream.max` and `Stream.min` return.
 */
module Seqs {
  import opened Wrappers

  /** The elements of `s` that satisfy `p`, in their original order. */
  function Filter<T(!new)>(s: seq<T>, p: T -> bool): (r: seq<T>)
    ensures |r| <= |s|
    ensures forall x :: x in r <==> x in s && p(x)
    ensures multiset(r) <= multiset(s)
  {
    if |s| == 0 then []
    else
      var rest := Filter(s[1..], p);
      assert s == [s[0]] + s[1..];
      if p(s[0]) then [s[0]] + rest else rest
  }

  /** `s` is in ascending order of `key`. */
  predicate Sorted<T>(s: seq<T>, key: T -> int) {
    forall i, j :: 0 <= i < j < |s| ==> key(s[i]) <= key(s[j])
  }

  /** Inserts `x` before the first element whose key is not smaller, so that
      `x` precedes every element of equal key. */
  function Insert<T(!new)>(x: T, s: seq<T>, key: T -> int): (r: seq<T>)
    requires Sorted(s, key)
    ensures Sorted(r, key)
    ensures multiset(r) == multiset(s) + multiset{x}
    ensures |r| == |s| + 1
  {
    if |s| == 0 then [x]
    else if key(x) <= key(s[0]) then [x] + s
    else
      var rest := Insert(x, s[1..], key);
      InsertStep(x, s, key, rest);
      [s[0]] + rest
  }

  /** The step of `Insert` that puts the first element back in front. */
  lemma InsertStep<T(!new)>(x: T, s: seq<T>, key: T -> int, rest: seq<T>)
    requires Sorted(s, key) && |s| > 0 && key(x) > key(s[0])
    requires Sorted(rest, key) && multiset(rest) == multiset(s[1..]) + multiset{x}
    ensures Sorted([s[0]] + rest, key)
    ensures multiset([s[0]] + rest) == multiset(s) + multiset{x}
  {
    assert s == [s[0]] + s[1..];
    forall y | y in rest ensures key(s[0]) <= key(y) {
      assert y in multiset(rest);
      if y != x {
        assert y in s[1..];
      }
    }
  }

  /** Stable insertion sort in ascending order of `key`: elements of equal
      key keep their relative order. */
  function SortBy<T(!new)>(s: seq<T>, key: T -> int): (r: seq<T>)
    ensures Sorted(r, key)
    ensures multiset(r) == multiset(s)
    ensures |r| == |s|
  {
    if |s| == 0 then []
    else
      assert multiset(s) == multiset{s[0]} + multiset(s[1..]) by {
        assert s == [s[0]] + s[1..];
      }
      Insert(s[0], SortBy(s[1..], key), key)
  }

  /** Sorting a sequence that is already in order leaves it as it is. */
  lemma {:induction false} SortOfSorted<T(!new)>(s: seq<T>, key: T -> int)
    requires Sorted(s, key)
    ensures SortBy(s, key) == s
  {
    if |s| > 0 {
      assert Sorted(s[1..], key);
      SortOfSorted(s[1..], key);
      assert s == [s[0]] + s[1..];
    }
  }

  /** Index of the first element of the page `PageRequest.of(from / size, size)`. */
  function PageStart(from: int, size: int): (r: nat)
    requires from >= 0 && size > 0
    ensures r <= from < r + size
    ensures r == from - from % size
  {
    var q := from / size;
    assert from == q * size + from % size;
    assert q >= 0;
    MulNonNegative(q, size);
    q * size
  }

  lemma MulNonNegative(a: int, b: int)
    requires a >= 0 && b >= 0
    ensures a * b >= 0
  {
  }

  /** The page of `s` that `PageRequest.of(from / size, size)` selects: page
      number `from / size`, at most `size` elements. */
  function PageOf<T>(s: seq<T>, from: int, size: int): (r: seq<T>)
    requires from >= 0 && size > 0
    ensures |r| <= size
    ensures PageStart(from, size) >= |s| ==> r == []
    ensures PageStart(from, size) < |s| ==> |r| == (if |s| - PageStart(from, size) < size then |s| - PageStart(from, size) else size)
    ensures forall k :: 0 <= k < |r| ==> r[k] == s[PageStart(from, size) + k]
  {
    var lo := PageStart(from, size);
    if lo >= |s| then []
    else if lo + size <= |s| then s[lo..lo + size]
    else s[lo..]
  }

  /** `from` is the true offset of the page exactly when it is a multiple of
      `size`; any other value snaps back to the enclosing page boundary. */
  lemma OffsetExactOnlyAtMultiples(from: int, size: int)
    requires from >= 0 && size > 0
    ensures PageStart(from, size) == from <==> from % size == 0
    ensures PageStart(from, size) == from - from % size
  {
  }

  /** A page of a sorted sequence is sorted, and holds elements of it. */
  lemma PageOfSorted<T(!new)>(s: seq<T>, from: int, size: int, key: T -> int)
    requires from >= 0 && size > 0
    requires Sorted(s, key)
    ensures Sorted(PageOf(s, from, size), key)
    ensures forall x :: x in PageOf(s, from, size) ==> x in s
  {
    var r := PageOf(s, from, size);
    var lo := PageStart(from, size);
    forall i, j | 0 <= i < j < |r| ensures key(r[i]) <= key(r[j]) {
      assert r[i] == s[lo + i] && r[j] == s[lo + j];
    }
    forall x | x in r ensures x in s {
      var k :| 0 <= k < |r| && r[k] == x;
      assert x == s[lo + k];
    }
  }

  /** Index of the element `Stream.max` returns: the greatest key, and the
      first such element when several share it. */
  function ArgMax<T>(s: seq<T>, key: T -> int): (i: nat)
    requires |s| > 0
    ensures i < |s|
    ensures forall j :: 0 <= j < |s| ==> key(s[j]) <= key(s[i])
    ensures forall j :: 0 <= j < i ==> key(s[j]) < key(s[i])
  {
    if |s| == 1 then 0
    else
      var k := ArgMax(s[..|s| - 1], key);
      assert s[k] == s[..|s| - 1][k];
      if key(s[k]) >= key(s[|s| - 1]) then k else |s| - 1
  }

  /** Index of the element `Stream.min` returns: the least key, and the
      first such element when several share it. */
  function ArgMin<T>(s: seq<T>, key: T -> int): (i: nat)
    requires |s| > 0
    ensures i < |s|
    ensures forall j :: 0 <= j < |s| ==> key(s[i]) <= key(s[j])
    ensures forall j :: 0 <= j < i ==> key(s[i]) < key(s[j])
  {
    if |s| == 1 then 0
    else
      var k := ArgMin(s[..|s| - 1], key);
      assert s[k] == s[..|s| - 1][k];
      if key(s[k]) <= key(s[|s| - 1]) then k else |s| - 1
  }

  /** `Stream.max(...).orElse(null)`. */
  function MaxBy<T(!new)>(s: seq<T>, key: T -> int): (r: Option<T>)
    ensures r.None? <==> |s| == 0
    ensures r.Some? ==> r.value in s && forall x :: x in s ==> key(x) <= key(r.value)
  {
    if |s| == 0 then None else Some(s[ArgMax(s, key)])
  }

  /** `Stream.min(...).orElse(null)`. */
  function MinBy<T(!new)>(s: seq<T>, key: T -> int): (r: Option<T>)
    ensures r.None? <==> |s| == 0
    ensures r.Some? ==> r.value in s && forall x :: x in s ==> key(r.value) <= key(x)
  {
    if |s| == 0 then None else Some(s[ArgMin(s, key)])
  }

  /** Filtering a sequence with one more element in front. */
  lemma FilterCons<T(!new)>(x: T, s: seq<T>, p: T -> bool)
    ensures Filter([x] + s, p) == if p(x) then [x] + Filter(s, p) else Filter(s, p)
  {
    assert ([x] + s)[0] == x && ([x] + s)[1..] == s;
  }

  /** Filtering an insertion is inserting into the filtered sequence when
      the new element passes, and the filtered sequence otherwise. */
  lemma {:induction false} FilterInsert<T(!new)>(x: T, s: seq<T>, key: T -> int, p: T -> bool)
    requires Sorted(s, key)
    ensures Sorted(Filter(s, p), key)
    ensures Filter(Insert(x, s, key), p) == if p(x) then Insert(x, Filter(s, p), key) else Filter(s, p)
  {
    FilterKeepsSorted(s, key, p);
    if |s| == 0 {
    } else if key(x) <= key(s[0]) {
      FilterInsertFront(x, s, key, p);
    } else {
      assert Sorted(s[1..], key);
      FilterInsert(x, s[1..], key, p);
      FilterKeepsSorted(s[1..], key, p);
      FilterInsertBehind(x, s, key, p);
    }
  }

  /** `FilterInsert` when `x` goes in front. */
  lemma FilterInsertFront<T(!new)>(x: T, s: seq<T>, key: T -> int, p: T -> bool)
    requires Sorted(s, key) && Sorted(Filter(s, p), key)
    requires |s| > 0 && key(x) <= key(s[0])
    ensures Filter(Insert(x, s, key), p) == if p(x) then Insert(x, Filter(s, p), key) else Filter(s, p)
  {
    InsertInFront(x, s, key);
    FilterCons(x, s, p);
    var f := Filter(s, p);
    if p(x) && |f| > 0 {
      assert f[0] in s;
      var k :| 0 <= k < |s| && s[k] == f[0];
      assert key(s[0]) <= key(s[k]);
    }
    if p(x) {
      InsertInFront(x, f, key);
    }
  }

  /** An element no greater than the first goes in front. */
  lemma InsertInFront<T(!new)>(x: T, s: seq<T>, key: T -> int)
    requires Sorted(s, key)
    requires |s| == 0 || key(x) <= key(s[0])
    ensures Insert(x, s, key) == [x] + s
  {
  }

  /** `FilterInsert` when `x` goes behind the first element, given the
      property for the rest. */
  lemma FilterInsertBehind<T(!new)>(x: T, s: seq<T>, key: T -> int, p: T -> bool)
    requires Sorted(s, key) && |s| > 0 && key(x) > key(s[0])
    requires Sorted(s[1..], key) && Sorted(Filter(s[1..], p), key) && Sorted(Filter(s, p), key)
    requires Filter(Insert(x, s[1..], key), p) == if p(x) then Insert(x, Filter(s[1..], p), key) else Filter(s[1..], p)
    ensures Filter(Insert(x, s, key), p) == if p(x) then Insert(x, Filter(s, p), key) else Filter(s, p)
  {
    BehindFirst(x, s, key, p);
    if p(s[0]) && p(x) {
      InsertBehindKept(x, s[0], Filter(s[1..], p), key);
    }
  }

  /** Filtering after inserting behind the first element: the first
      element is kept or dropped on its own. */
  lemma BehindFirst<T(!new)>(x: T, s: seq<T>, key: T -> int, p: T -> bool)
    requires Sorted(s, key) && |s| > 0 && key(x) > key(s[0])
    ensures Sorted(s[1..], key)
    ensures Filter(Insert(x, s, key), p) == if p(s[0]) then [s[0]] + Filter(Insert(x, s[1..], key), p) else Filter(Insert(x, s[1..], key), p)
    ensures Filter(s, p) == if p(s[0]) then [s[0]] + Filter(s[1..], p) else Filter(s[1..], p)
  {
    InsertBehind(x, s, key);
    FilterCons(s[0], Insert(x, s[1..], key), p);
    FilterFirst(s, p);
  }

  /** Filtering a non-empty sequence, element by element. */
  lemma FilterFirst<T(!new)>(s: seq<T>, p: T -> bool)
    requires |s| > 0
    ensures Filter(s, p) == if p(s[0]) then [s[0]] + Filter(s[1..], p) else Filter(s[1..], p)
  {
  }

  /** Inserting behind a kept first element. */
  lemma InsertBehindKept<T(!new)>(x: T, y: T, f: seq<T>, key: T -> int)
    requires Sorted([y] + f, key) && key(x) > key(y)
    ensures Sorted(f, key)
    ensures Insert(x, [y] + f, key) == [y] + Insert(x, f, key)
  {
    InsertBehind(x, [y] + f, key);
    assert ([y] + f)[1..] == f;
  }

  /** An element greater than the first goes behind it. */
  lemma InsertBehind<T(!new)>(x: T, s: seq<T>, key: T -> int)
    requires Sorted(s, key)
    requires |s| > 0 && key(x) > key(s[0])
    ensures Sorted(s[1..], key)
    ensures Insert(x, s, key) == [s[0]] + Insert(x, s[1..], key)
  {
  }

  /** A filtered sorted sequence is sorted. */
  lemma {:induction false} FilterKeepsSorted<T(!new)>(s: seq<T>, key: T -> int, p: T -> bool)
    requires Sorted(s, key)
    ensures Sorted(Filter(s, p), key)
  {
    if |s| > 0 {
      assert Sorted(s[1..], key);
      FilterKeepsSorted(s[1..], key, p);
      var rest := Filter(s[1..], p);
      if p(s[0]) {
        forall j | 0 <= j < |rest| ensures key(s[0]) <= key(rest[j]) {
          assert rest[j] in s[1..];
          var k :| 0 <= k < |s[1..]| && s[1..][k] == rest[j];
          assert s[1..][k] == s[k + 1];
        }
        assert Filter(s, p) == [s[0]] + rest;
      }
    }
  }

  /** Sorting keeps exactly the elements it is given. */
  lemma SortByMembers<T(!new)>(s: seq<T>, key: T -> int)
    ensures forall x :: x in SortBy(s, key) <==> x in s
  {
    var r := SortBy(s, key);
    forall x ensures x in r <==> x in s {
      assert x in r <==> x in multiset(r);
      assert x in s <==> x in multiset(s);
    }
  }

  /** The element at position `i` is on the page requested with `from = i`. */
  lemma PageAtPosition<T>(q: seq<T>, i: int, size: int)
    requires size > 0 && 0 <= i < |q|
    ensures q[i] in PageOf(q, i, size)
  {
    var lo := PageStart(i, size);
    var r := PageOf(q, i, size);
    assert lo <= i < lo + size;
    assert r[i - lo] == q[i];
  }

  /** Filtering commutes with the stable sort: sorting everything and then
      keeping some elements gives what keeping them first and then sorting
      gives. */
  lemma {:induction false} FilterSortBy<T(!new)>(s: seq<T>, key: T -> int, p: T -> bool)
    ensures Filter(SortBy(s, key), p) == SortBy(Filter(s, p), key)
  {
    if |s| > 0 {
      FilterSortBy(s[1..], key, p);
      FilterInsert(s[0], SortBy(s[1..], key), key, p);
      FilterFirst(s, p);
      if p(s[0]) {
        var f := Filter(s, p);
        assert f[0] == s[0] && f[1..] == Filter(s[1..], p);
      }
    }
  }

  /** Keeping the elements that pass `q` out of those that pass a weaker `p`
      is keeping those that pass `q`. */
  lemma {:induction false} FilterNarrower<T(!new)>(s: seq<T>, p: T -> bool, q: T -> bool)
    requires forall x :: q(x) ==> p(x)
    ensures Filter(Filter(s, p), q) == Filter(s, q)
  {
    if |s| > 0 {
      FilterNarrower(s[1..], p, q);
      if p(s[0]) {
        assert Filter(s, p) == [s[0]] + Filter(s[1..], p);
        assert ([s[0]] + Filter(s[1..], p))[1..] == Filter(s[1..], p);
      }
    }
  }

  lemma AppendTail<T>(s: seq<T>, x: T)
    requires |s| > 0
    ensures (s + [x])[0] == s[0] && (s + [x])[1..] == s[1..] + [x]
  {
  }

  /** Filtering a sequence with one element appended filters the prefix and
      then keeps or drops the new element. */
  lemma {:induction false} FilterAppend<T(!new)>(s: seq<T>, x: T, p: T -> bool)
    ensures Filter(s + [x], p) == Filter(s, p) + (if p(x) then [x] else [])
  {
    if |s| == 0 {
      assert s + [x] == [x] + [];
      FilterCons(x, [], p);
    } else {
      FilterAppend(s[1..], x, p);
      FilterAppendStep(s, x, p);
    }
  }

  lemma FilterAppendStep<T(!new)>(s: seq<T>, x: T, p: T -> bool)
    requires |s| > 0
    requires Filter(s[1..] + [x], p) == Filter(s[1..], p) + (if p(x) then [x] else [])
    ensures Filter(s + [x], p) == Filter(s, p) + (if p(x) then [x] else [])
  {
    var tail := if p(x) then [x] else [];
    var rest := Filter(s[1..], p);
    AppendTail(s, x);
    FilterFirst(s + [x], p);
    FilterFirst(s, p);
    if p(s[0]) {
      AppendAssoc([s[0]], rest, tail);
    }
  }

  lemma AppendAssoc<T>(a: seq<T>, b: seq<T>, c: seq<T>)
    ensures a + (b + c) == (a + b) + c
  {
  }
}

=== FILE: server_bookings.dfy ===
/**
  The two list operations of the server iteration's BookingServiceImpl:
  `getAllUsersBookings` (the caller's own bookings) and
  `getAllUsersItemsBookings` (the bookings of the caller's items). Each
  checks the user, then the page parameters, picks one repository query by
  state, and returns the page `from / size` of its newest-first result.
 */
module ServerBookings {
  import opened Domain
  import opened Seqs
  import opened Mappers
  import opened BookingQueries

  /** The repository query the state switch selects. ALL and every state the
      switch does not name fall to the default, which filters nothing. */
  function ServerCond(state: BookingState): (c: Cond)
    ensures forall b: Booking, now: int :: Holds(c, b, now) <==>
              match state
              case Waiting => b.status == Status.Waiting
              case Rejected => b.status == Status.Rejected
              case Past => b.end < now
              case Future => b.start > now
              case Current => b.start < now < b.end
              case _ => true
  {
    match state
    case Waiting => StatusIs(Status.Waiting)
    case Rejected => StatusIs(Status.Rejected)
    case Past => EndBefore
    case Future => StartAfter
    case Current => StartBeforeEndAfter
    case _ => Everything
  }

  /** The page `from / size` of the query for `state`: the slice of the
      full, newest-first result that starts at the page's first position and
      holds `size` bookings, or what is left of the result, or none past its
      end. */
  function ListPage(bs: seq<Booking>, side: Side, state: BookingState, from: int, size: int, now: int): (r: seq<Booking>)
    requires from >= 0 && size > 0
    ensures |r| <= size
    ensures StartDescending(r)
    ensures forall b :: b in r ==> b in bs && Belongs(side, b) && Holds(ServerCond(state), b, now)
    ensures var q := Query(bs, side, ServerCond(state), now);
            var lo := PageStart(from, size);
            && (lo >= |q| ==> r == [])
            && (lo < |q| ==> |r| == (if |q| - lo < size then |q| - lo else size))
            && forall k :: 0 <= k < |r| ==> r[k] == q[lo + k]
  {
    var q := Query(bs, side, ServerCond(state), now);
    PageKeepsOrder(q, from, size);
    PageOf(q, from, size)
  }

  /** No matching booking is out of reach of paging: asking with `from` at
      the booking's position in the full result returns a page that holds
      it. */
  lemma PagesCoverQuery(bs: seq<Booking>, side: Side, state: BookingState, size: int, now: int, b: Booking)
    requires size > 0
    requires b in bs && Belongs(side, b) && Holds(ServerCond(state), b, now)
    ensures exists from: int :: from >= 0 && b in ListPage(bs, side, state, from, size, now)
  {
    var q := Query(bs, side, ServerCond(state), now);
    assert b in q;
    var i :| 0 <= i < |q| && q[i] == b;
    PageAtPosition(q, i, size);
    assert b in ListPage(bs, side, state, i, size, now);
  }

  /** `getAllUsersBookings`: an unknown user is UserNotFound before the page
      parameters are looked at; then a negative `from` or a non-positive
      `size` is IllegalArgument; otherwise the views of the caller's page. */
  function GetAllUsersBookings(db: Db, userId: int, state: BookingState, from: int, size: int, now: int): (r: Result<seq<BookingView>>)
    ensures userId !in db.users ==> r == Err(UserNotFound)
    ensures userId in db.users && (from < 0 || size <= 0) ==> r == Err(IllegalArgument)
    ensures r.Ok? <==> userId in db.users && from >= 0 && size > 0
    ensures r.Ok? ==> |r.value| <= size
    ensures r.Ok? ==> r.value == ToBookingViews(ListPage(db.bookings, ByBooker(userId), state, from, size, now))
  {
    if userId !in db.users then Err(UserNotFound)
    else if from < 0 || size <= 0 then Err(IllegalArgument)
    else Ok(ToBookingViews(ListPage(db.bookings, ByBooker(userId), state, from, size, now)))
  }

  /** `getAllUsersItemsBookings`: the same checks in the same order over the
      bookings of the caller's items. The page is sorted once more by start
      descending; since it is already in that order (and the sort is
      stable), the result is the repository page unchanged. */
  function GetAllUsersItemsBookings(db: Db, userId: int, state: BookingState, from: int, size: int, now: int): (r: Result<seq<BookingView>>)
    ensures userId !in db.users ==> r == Err(UserNotFound)
    ensures userId in db.users && (from < 0 || size <= 0) ==> r == Err(IllegalArgument)
    ensures r.Ok? <==> userId in db.users && from >= 0 && size > 0
    ensures r.Ok? ==> |r.value| <= size
    ensures r.Ok? ==> r.value == ToBookingViews(ListPage(db.bookings, ByOwner(userId), state, from, size, now))
  {
    if userId !in db.users then Err(UserNotFound)
    else if from < 0 || size <= 0 then Err(IllegalArgument)
    else
      var page := ListPage(db.bookings, ByOwner(userId), state, from, size, now);
      NewestFirstOfSorted(page);
      Ok(ToBookingViews(NewestFirst(page)))
  }
}

=== FILE: server_items.dfy ===
/**
  The ItemServiceImpl of the server iteration: editing an item, the item
  views with their last and next booking and their comments, keyword
  search, and comments.
 */
module ServerItems {
  import opened Wrappers
  import opened Domain
  import opened Seqs
  import opened Mappers
  import opened BookingQueries
  import opened TextSearch
  import opened ItemQueries
  import Lifecycle

  // ---------------------------------------------------------------- editItem

  /** `editItem`: an unknown item is ItemNotFound, and a caller other than
      its owner gets NotOwner with nothing changed. Otherwise each present
      field of the DTO overwrites the stored item's, in place, and the DTO of
      the saved item is returned. Bookings and comments of the item refer to
      the saved row from then on. The monolith's `editItem` is the same code. */
  function EditItem(db: Db, dto: ItemDto, itemId: int, userId: int): (r: Result<(Db, ItemDto)>)
    ensures FindItem(db.items, itemId).None? <==> r == Err(ItemNotFound)
    ensures FindItem(db.items, itemId).Some? && FindItem(db.items, itemId).value.ownerId != userId <==> r == Err(NotOwner)
    ensures r.Ok? ==>
              var (db', out) := r.value;
              var k := ItemIndex(db.items, itemId).value;
              var item' := ApplyPatch(FindItem(db.items, itemId).value, dto.name, dto.description, dto.available);
              && db' == db.(items := db'.items, bookings := db'.bookings, comments := db'.comments)
              && |db'.items| == |db.items|
              && (forall j :: 0 <= j < |db.items| && j != k ==> db'.items[j] == db.items[j])
              && db'.items[k] == item'
              && db'.bookings == RefreshBookings(db.bookings, item')
              && db'.comments == RefreshComments(db.comments, item')
              && out == ToItemDto(item')
  {
    match ItemIndex(db.items, itemId)
    case None => Err(ItemNotFound)
    case Some(k) =>
      var item := db.items[k];
      if item.ownerId != userId then Err(NotOwner)
      else
        var item' := ApplyPatch(item, dto.name, dto.description, dto.available);
        var db' := db.(items := db.items[k := item'],
                       bookings := RefreshBookings(db.bookings, item'),
                       comments := RefreshComments(db.comments, item'));
        Ok((db', ToItemDto(item')))
  }

  /** After a successful edit every lookup by id finds what it found before,
      except that the edited item's id now finds the edited item. */
  lemma EditedLookup(db: Db, dto: ItemDto, itemId: int, userId: int, id: int)
    requires EditItem(db, dto, itemId, userId).Ok?
    ensures var db' := EditItem(db, dto, itemId, userId).value.0;
            var item' := ApplyPatch(FindItem(db.items, itemId).value, dto.name, dto.description, dto.available);
            && ItemIndex(db'.items, id) == ItemIndex(db.items, id)
            && FindItem(db'.items, id) == (if id == itemId then Some(item') else FindItem(db.items, id))
  {
    var db' := EditItem(db, dto, itemId, userId).value.0;
    var k := ItemIndex(db.items, itemId).value;
    assert db'.items == db.items[k := db'.items[k]];
    ItemIndexAfterUpdate(db.items, k, db'.items[k], id);
  }

  /** After a successful edit, looking the item up finds the edited item,
      and repeating the same edit changes nothing more. */
  lemma EditItemThenFind(db: Db, dto: ItemDto, itemId: int, userId: int)
    requires EditItem(db, dto, itemId, userId).Ok?
    ensures var db' := EditItem(db, dto, itemId, userId).value.0;
            && FindItem(db'.items, itemId)
               == Some(ApplyPatch(FindItem(db.items, itemId).value, dto.name, dto.description, dto.available))
            && EditItem(db', dto, itemId, userId).Ok?
            && EditItem(db', dto, itemId, userId).value.0 == db'
  {
    var db' := EditItem(db, dto, itemId, userId).value.0;
    var k := ItemIndex(db.items, itemId).value;
    var item := FindItem(db.items, itemId).value;
    EditedLookup(db, dto, itemId, userId, itemId);
    ApplyPatchIdempotent(item, dto.name, dto.description, dto.available);
    RefreshTwice(db.bookings, db.comments, db'.items[k]);
    assert db'.items[k := db'.items[k]] == db'.items;
  }

  /** An edit keeps every booking and comment showing the current rows: the
      bookings and comments of the edited item show the edited item. */
  lemma EditItemKeepsReferencesCurrent(db: Db, dto: ItemDto, itemId: int, userId: int)
    requires ReferencesCurrent(db)
    requires EditItem(db, dto, itemId, userId).Ok?
    ensures ReferencesCurrent(EditItem(db, dto, itemId, userId).value.0)
  {
    var db' := EditItem(db, dto, itemId, userId).value.0;
    forall b | b in db'.bookings
      ensures BookingCurrent(db', b)
    {
      var j :| 0 <= j < |db'.bookings| && db'.bookings[j] == b;
      assert db.bookings[j] in db.bookings;
      EditedLookup(db, dto, itemId, userId, db.bookings[j].item.id);
    }
    forall c | c in db'.comments
      ensures CommentCurrent(db', c)
    {
      var j :| 0 <= j < |db'.comments| && db'.comments[j] == c;
      assert db.comments[j] in db.comments;
      EditedLookup(db, dto, itemId, userId, db.comments[j].item.id);
    }
  }

  /** Renaming an item shows on its bookings: in a store whose references
      are current, `getBooking` of a booking of the item answers the same
      callers as before, with the edited item. */
  lemma EditShowsOnBooking(db: Db, dto: ItemDto, itemId: int, userId: int, caller: int, bookingId: int)
    requires ReferencesCurrent(db)
    requires EditItem(db, dto, itemId, userId).Ok?
    requires BookingIndex(db.bookings, bookingId).Some?
    requires db.bookings[BookingIndex(db.bookings, bookingId).value].item.id == itemId
    ensures var db' := EditItem(db, dto, itemId, userId).value.0;
            var item' := ApplyPatch(FindItem(db.items, itemId).value, dto.name, dto.description, dto.available);
            && (Lifecycle.GetBooking(db', caller, bookingId).Ok? <==> Lifecycle.GetBooking(db, caller, bookingId).Ok?)
            && (Lifecycle.GetBooking(db', caller, bookingId).Ok? ==>
                  Lifecycle.GetBooking(db', caller, bookingId).value.item == ToItemDto(item'))
  {
    var db' := EditItem(db, dto, itemId, userId).value.0;
    var item' := ApplyPatch(FindItem(db.items, itemId).value, dto.name, dto.description, dto.available);
    var k := BookingIndex(db.bookings, bookingId).value;
    var b := db.bookings[k];
    assert b in db.bookings && BookingCurrent(db, b);
    assert forall j :: 0 <= j < |db.bookings| ==> BookingIdOf(db'.bookings[j]) == BookingIdOf(db.bookings[j]);
    SameKeysSameIndex(db'.bookings, db.bookings, BookingIdOf, bookingId);
    assert BookingIndex(db'.bookings, bookingId) == Some(k);
    assert db'.bookings[k] == b.(item := item');
  }

  // ---------------------------------------------------------------- setBookings

  /** ItemMapper.itemDtoWithBooking (a field-for-field copy): the item's own
      fields, no bookings, no comments. */
  function ItemView(item: Item): (v: ItemWithBookings)
    ensures Shows(v, item)
    ensures v.lastBooking.None? && v.nextBooking.None? && v.comments == []
  {
    ItemWithBookings(item.id, item.name, item.description, item.available, item.ownerId, None, None, [])
  }

  /** The view carries the item's own fields. */
  predicate Shows(v: ItemWithBookings, item: Item) {
    v.id == item.id && v.name == item.name && v.description == item.description
    && v.available == item.available && v.ownerId == item.ownerId
  }

  /** The two views carry the same item fields. */
  predicate SameItem(v: ItemWithBookings, w: ItemWithBookings) {
    v.id == w.id && v.name == w.name && v.description == w.description
    && v.available == w.available && v.ownerId == w.ownerId
  }

  /** The key of `Comparator.comparing(ItemBookingDto::getStart)`. */
  function SummaryStart(d: ItemBookingDto): int {
    if d.start.Some? then d.start.value else 0
  }

  /** A summary of a booking of the item that started before now. */
  predicate StartedBefore(d: ItemBookingDto, itemId: int, now: int) {
    d.item.Some? && d.start.Some? && d.item.value.id == itemId && d.start.value < now
  }

  /** A summary of a booking of the item that starts after now. */
  predicate StartsAfter(d: ItemBookingDto, itemId: int, now: int) {
    d.item.Some? && d.start.Some? && d.item.value.id == itemId && d.start.value > now
  }

  /** `setBookings`: the last booking is, among the summaries of this item's
      bookings that started before now, one with the latest start; the next
      booking is, among those that start after now, one with the earliest
      start. Either is null when there is no candidate; a booking that starts
      exactly now is neither. Nothing else in the view changes. Every summary
      is built from a booking, so none has a null field. */
  function SetBookings(view: ItemWithBookings, ds: seq<ItemBookingDto>, now: int): (r: ItemWithBookings)
    requires forall d :: d in ds ==> Full(d)
    ensures SameItem(r, view) && r.comments == view.comments
    ensures r.lastBooking.None? <==> forall d :: d in ds ==> !StartedBefore(d, view.id, now)
    ensures r.lastBooking.Some? ==> r.lastBooking.value in ds && StartedBefore(r.lastBooking.value, view.id, now)
    ensures r.lastBooking.Some? ==>
              forall d :: d in ds && StartedBefore(d, view.id, now) ==> d.start.value <= r.lastBooking.value.start.value
    ensures r.nextBooking.None? <==> forall d :: d in ds ==> !StartsAfter(d, view.id, now)
    ensures r.nextBooking.Some? ==> r.nextBooking.value in ds && StartsAfter(r.nextBooking.value, view.id, now)
    ensures r.nextBooking.Some? ==>
              forall d :: d in ds && StartsAfter(d, view.id, now) ==> r.nextBooking.value.start.value <= d.start.value
  {
    view.(lastBooking := MaxBy(Past(ds, view.id, now), SummaryStart),
          nextBooking := MinBy(Future(ds, view.id, now), SummaryStart))
  }

  /** The summaries of the item's bookings that started before now. */
  function Past(ds: seq<ItemBookingDto>, itemId: int, now: int): (r: seq<ItemBookingDto>)
    ensures forall d :: d in r <==> d in ds && StartedBefore(d, itemId, now)
  {
    Filter(ds, (d: ItemBookingDto) => StartedBefore(d, itemId, now))
  }

  /** The summaries of the item's bookings that start after now. */
  function Future(ds: seq<ItemBookingDto>, itemId: int, now: int): (r: seq<ItemBookingDto>)
    ensures forall d :: d in r <==> d in ds && StartsAfter(d, itemId, now)
  {
    Filter(ds, (d: ItemBookingDto) => StartsAfter(d, itemId, now))
  }

  /** `last` summarises, among the bookings of `pool` for the item that
      started before now, one with the latest start; it is null exactly when
      none of them has started. */
  predicate IsLastAmong(last: Option<ItemBookingDto>, pool: seq<Booking>, itemId: int, now: int) {
    match last
    case None => forall b :: b in pool && b.item.id == itemId ==> b.start >= now
    case Some(d) =>
      && (exists b :: b in pool && b.item.id == itemId && b.start < now && d == ToItemBookingDto(Some(b)))
      && (forall b :: b in pool && b.item.id == itemId && b.start < now ==> d.start.Some? && b.start <= d.start.value)
  }

  /** `next` summarises, among the bookings of `pool` for the item that start
      after now, one with the earliest start; it is null exactly when none
      of them lies ahead. */
  predicate IsNextAmong(next: Option<ItemBookingDto>, pool: seq<Booking>, itemId: int, now: int) {
    match next
    case None => forall b :: b in pool && b.item.id == itemId ==> b.start <= now
    case Some(d) =>
      && (exists b :: b in pool && b.item.id == itemId && b.start > now && d == ToItemBookingDto(Some(b)))
      && (forall b :: b in pool && b.item.id == itemId && b.start > now ==> d.start.Some? && d.start.value <= b.start)
  }

  /** Every booking of the list has its summary in the summaries. */
  lemma SummaryOf(pool: seq<Booking>, b: Booking)
    requires b in pool
    ensures ToItemBookingDto(Some(b)) in ToItemBookingDtos(pool)
  {
    var i :| 0 <= i < |pool| && pool[i] == b;
    assert ToItemBookingDtos(pool)[i] == ToItemBookingDto(Some(b));
  }

  /** Every summary of the list is that of one of its bookings. */
  lemma SummaryFrom(pool: seq<Booking>, d: ItemBookingDto) returns (b: Booking)
    requires d in ToItemBookingDtos(pool)
    ensures b in pool && d == ToItemBookingDto(Some(b))
  {
    var ds := ToItemBookingDtos(pool);
    var i :| 0 <= i < |ds| && ds[i] == d;
    b := pool[i];
  }

  /** `setBookings` over the summaries of a list of bookings picks, in terms
      of the bookings themselves, the last booking of the item. */
  lemma LastOverBookings(view: ItemWithBookings, pool: seq<Booking>, now: int)
    ensures IsLastAmong(SetBookings(view, ToItemBookingDtos(pool), now).lastBooking, pool, view.id, now)
  {
    var ds := ToItemBookingDtos(pool);
    var r := SetBookings(view, ds, now);
    match r.lastBooking
    case None =>
      forall b | b in pool && b.item.id == view.id ensures b.start >= now {
        SummaryOf(pool, b);
        assert !StartedBefore(ToItemBookingDto(Some(b)), view.id, now);
      }
    case Some(d) =>
      var b := SummaryFrom(pool, d);
      forall b' | b' in pool && b'.item.id == view.id && b'.start < now ensures b'.start <= d.start.value {
        SummaryOf(pool, b');
        assert StartedBefore(ToItemBookingDto(Some(b')), view.id, now);
      }
  }

  /** `setBookings` over the summaries of a list of bookings picks, in terms
      of the bookings themselves, the next booking of the item. */
  lemma NextOverBookings(view: ItemWithBookings, pool: seq<Booking>, now: int)
    ensures IsNextAmong(SetBookings(view, ToItemBookingDtos(pool), now).nextBooking, pool, view.id, now)
  {
    var ds := ToItemBookingDtos(pool);
    var r := SetBookings(view, ds, now);
    match r.nextBooking
    case None =>
      forall b | b in pool && b.item.id == view.id ensures b.start <= now {
        SummaryOf(pool, b);
        assert !StartsAfter(ToItemBookingDto(Some(b)), view.id, now);
      }
    case Some(d) =>
      var b := SummaryFrom(pool, d);
      forall b' | b' in pool && b'.item.id == view.id && b'.start > now ensures d.start.value <= b'.start {
        SummaryOf(pool, b');
        assert StartsAfter(ToItemBookingDto(Some(b')), view.id, now);
      }
  }

  lemma SetBookingsOverBookings(view: ItemWithBookings, pool: seq<Booking>, now: int)
    ensures IsLastAmong(SetBookings(view, ToItemBookingDtos(pool), now).lastBooking, pool, view.id, now)
    ensures IsNextAmong(SetBookings(view, ToItemBookingDtos(pool), now).nextBooking, pool, view.id, now)
  {
    LastOverBookings(view, pool, now);
    NextOverBookings(view, pool, now);
  }

  // ---------------------------------------------------------------- getItemById

  /** `findByItem_IdAndStatusOrderByStartDesc(itemId, APPROVED)`. */
  function ApprovedOf(bs: seq<Booking>, itemId: int): (r: seq<Booking>)
    ensures forall b :: b in r <==> b in bs && b.item.id == itemId && b.status == Status.Approved
    ensures StartDescending(r)
  {
    Query(bs, ByItem(itemId), StatusIs(Status.Approved), 0)
  }

  /** `getItemById`: an unknown item is ItemNotFound. Otherwise the view of
      the item with its comments newest first; only the owner sees a last
      and a next booking, chosen among the item's APPROVED bookings, and for
      anyone else both stay null. */
  function GetItemById(db: Db, itemId: int, userId: int, now: int): (r: Result<ItemWithBookings>)
    ensures FindItem(db.items, itemId).None? <==> r == Err(ItemNotFound)
    ensures r.Ok? ==> Shows(r.value, FindItem(db.items, itemId).value)
    ensures r.Ok? ==> r.value.comments == ToCommentDtos(ItemComments(db.comments, itemId))
    ensures r.Ok? && FindItem(db.items, itemId).value.ownerId != userId ==>
              r.value.lastBooking.None? && r.value.nextBooking.None?
    ensures r.Ok? && FindItem(db.items, itemId).value.ownerId == userId ==>
              && IsLastAmong(r.value.lastBooking, ApprovedOf(db.bookings, itemId), itemId, now)
              && IsNextAmong(r.value.nextBooking, ApprovedOf(db.bookings, itemId), itemId, now)
  {
    match FindItem(db.items, itemId)
    case None => Err(ItemNotFound)
    case Some(item) =>
      var summaries := ToItemBookingDtos(ApprovedOf(db.bookings, itemId));
      var view := ItemView(item);
      var withBookings := if item.ownerId == userId then SetBookings(view, summaries, now) else view;
      SetBookingsOverBookings(view, ApprovedOf(db.bookings, itemId), now);
      Ok(withBookings.(comments := ToCommentDtos(ItemComments(db.comments, itemId))))
  }

  // ---------------------------------------------------------------- getAllItems

  /** `findAllByOwnerIdWithoutPaging(userId, start DESC)`: every booking of
      the owner's items, of any status, newest first. */
  function OwnerBookings(bs: seq<Booking>, userId: int): (r: seq<Booking>)
    ensures forall b :: b in r <==> b in bs && b.item.ownerId == userId
    ensures StartDescending(r)
  {
    Query(bs, ByOwner(userId), Everything, 0)
  }

  /** One entry of `getAllItems`: `setBookings` over the owner's summaries,
      and `setComments`, which keeps the entry's comments out of the batch. */
  function Decorate(v: ItemWithBookings, ds: seq<ItemBookingDto>, batch: seq<Comment>, now: int): (r: ItemWithBookings)
    requires forall d :: d in ds ==> Full(d)
    ensures SameItem(r, v)
    ensures r.lastBooking == SetBookings(v, ds, now).lastBooking
    ensures r.nextBooking == SetBookings(v, ds, now).nextBooking
    ensures r.comments == ToCommentDtos(Filter(batch, OfItem(v.id)))
  {
    SetBookings(v, ds, now).(comments := ToCommentDtos(Filter(batch, OfItem(v.id))))
  }

  function DecorateAll(vs: seq<ItemWithBookings>, ds: seq<ItemBookingDto>, batch: seq<Comment>, now: int): (r: seq<ItemWithBookings>)
    requires forall d :: d in ds ==> Full(d)
    ensures |r| == |vs|
    ensures forall k :: 0 <= k < |vs| ==> r[k] == Decorate(vs[k], ds, batch, now)
  {
    if |vs| == 0 then [] else [Decorate(vs[0], ds, batch, now)] + DecorateAll(vs[1..], ds, batch, now)
  }

  function Views(items: seq<Item>): (vs: seq<ItemWithBookings>)
    ensures |vs| == |items|
    ensures forall k :: 0 <= k < |items| ==> vs[k] == ItemView(items[k])
  {
    if |items| == 0 then [] else [ItemView(items[0])] + Views(items[1..])
  }

  /** The owner's stored items in ascending order of id (`sorted` is
      stable, so equal ids keep storage order). */
  function Owned(items: seq<Item>, userId: int): (r: seq<Item>)
    ensures |r| == |Filter(items, OwnedBy(userId))|
    ensures forall it :: it in r <==> it in items && it.ownerId == userId
    ensures forall i, j :: 0 <= i < j < |r| ==> r[i].id <= r[j].id
    ensures multiset(r) == multiset(Filter(items, OwnedBy(userId)))
  {
    var r := SortBy(Filter(items, OwnedBy(userId)), IdOf);
    SortByMembers(Filter(items, OwnedBy(userId)), IdOf);
    assert forall i, j :: 0 <= i < j < |r| ==> IdOf(r[i]) <= IdOf(r[j]);
    r
  }

  /** The entries `getAllItems` builds out of the owner's items in order,
      the summaries of the owner's bookings and the batch of comments. */
  function Entries(owned: seq<Item>, ds: seq<ItemBookingDto>, batch: seq<Comment>, now: int): seq<ItemWithBookings>
    requires forall d :: d in ds ==> Full(d)
  {
    DecorateAll(Views(owned), ds, batch, now)
  }

  lemma EntriesShow(owned: seq<Item>, ds: seq<ItemBookingDto>, batch: seq<Comment>, now: int)
    requires forall d :: d in ds ==> Full(d)
    ensures |Entries(owned, ds, batch, now)| == |owned|
    ensures forall k :: 0 <= k < |owned| ==> Shows(Entries(owned, ds, batch, now)[k], owned[k])
  {
  }

  /** Each entry picks its own item's comments out of whatever batch it is
      given. */
  lemma EntriesPick(owned: seq<Item>, ds: seq<ItemBookingDto>, batch: seq<Comment>, now: int)
    requires forall d :: d in ds ==> Full(d)
    ensures var r := Entries(owned, ds, batch, now);
            && |r| == |owned|
            && forall k :: 0 <= k < |r| ==>
                 r[k].id == owned[k].id && r[k].comments == ToCommentDtos(Filter(batch, OfItem(owned[k].id)))
  {
  }

  /** Each entry keeps its own comments out of the batch read for all the
      entries, which are its comments newest first. */
  lemma EntriesComments(owned: seq<Item>, ds: seq<ItemBookingDto>, cs: seq<Comment>, now: int)
    requires forall d :: d in ds ==> Full(d)
    ensures var r := Entries(owned, ds, CommentsOfItems(cs, Ids(owned)), now);
            forall k :: 0 <= k < |r| ==> r[k].comments == ToCommentDtos(ItemComments(cs, r[k].id))
  {
    var ids := Ids(owned);
    var batch := CommentsOfItems(cs, ids);
    var r := Entries(owned, ds, batch, now);
    EntriesPick(owned, ds, batch, now);
    forall k | 0 <= k < |r| ensures r[k].comments == ToCommentDtos(ItemComments(cs, r[k].id)) {
      assert ids[k] == owned[k].id;
      BatchThenPick(cs, ids, owned[k].id);
    }
  }

  /** Each entry's last and next booking are chosen among `pool`. */
  lemma EntriesBookings(owned: seq<Item>, pool: seq<Booking>, batch: seq<Comment>, now: int)
    ensures var r := Entries(owned, ToItemBookingDtos(pool), batch, now);
            forall k :: 0 <= k < |r| ==>
              IsLastAmong(r[k].lastBooking, pool, r[k].id, now) && IsNextAmong(r[k].nextBooking, pool, r[k].id, now)
  {
    var vs := Views(owned);
    var r := Entries(owned, ToItemBookingDtos(pool), batch, now);
    forall k | 0 <= k < |r|
      ensures IsLastAmong(r[k].lastBooking, pool, r[k].id, now) && IsNextAmong(r[k].nextBooking, pool, r[k].id, now)
    {
      SetBookingsOverBookings(vs[k], pool, now);
    }
  }

  /** The entries `getAllItems` builds for the user. */
  function AllItemsOf(db: Db, userId: int, now: int): seq<ItemWithBookings> {
    Entries(Owned(db.items, userId), ToItemBookingDtos(OwnerBookings(db.bookings, userId)),
            CommentsOfItems(db.comments, Ids(Owned(db.items, userId))), now)
  }

  /** Entry `k` shows the `k`-th of `owned`, so the entries come in ascending
      order of id. */
  predicate ListsInOrder(r: seq<ItemWithBookings>, owned: seq<Item>) {
    && |r| == |owned|
    && (forall k :: 0 <= k < |r| ==> Shows(r[k], owned[k]))
    && (forall i, j :: 0 <= i < j < |r| ==> r[i].id <= r[j].id)
  }

  /** Every entry carries its own item's comments, newest first. */
  predicate CarriesOwnComments(r: seq<ItemWithBookings>, cs: seq<Comment>) {
    forall k :: 0 <= k < |r| ==> r[k].comments == ToCommentDtos(ItemComments(cs, r[k].id))
  }

  /** Every entry's last and next booking are chosen among `pool`. */
  predicate BookingsChosenAmong(r: seq<ItemWithBookings>, pool: seq<Booking>, now: int) {
    forall k :: 0 <= k < |r| ==>
      && IsLastAmong(r[k].lastBooking, pool, r[k].id, now)
      && IsNextAmong(r[k].nextBooking, pool, r[k].id, now)
  }

  lemma AllItemsShape(db: Db, userId: int, now: int)
    ensures ListsInOrder(AllItemsOf(db, userId, now), Owned(db.items, userId))
  {
    EntriesShow(Owned(db.items, userId), ToItemBookingDtos(OwnerBookings(db.bookings, userId)),
                CommentsOfItems(db.comments, Ids(Owned(db.items, userId))), now);
    assert AllItemsOf(db, userId, now)
        == Entries(Owned(db.items, userId), ToItemBookingDtos(OwnerBookings(db.bookings, userId)),
                   CommentsOfItems(db.comments, Ids(Owned(db.items, userId))), now);
  }

  lemma AllItemsComments(db: Db, userId: int, now: int)
    ensures CarriesOwnComments(AllItemsOf(db, userId, now), db.comments)
  {
    EntriesComments(Owned(db.items, userId), ToItemBookingDtos(OwnerBookings(db.bookings, userId)), db.comments, now);
    assert AllItemsOf(db, userId, now)
        == Entries(Owned(db.items, userId), ToItemBookingDtos(OwnerBookings(db.bookings, userId)),
                   CommentsOfItems(db.comments, Ids(Owned(db.items, userId))), now);
  }

  lemma AllItemsBookings(db: Db, userId: int, now: int)
    ensures BookingsChosenAmong(AllItemsOf(db, userId, now), OwnerBookings(db.bookings, userId), now)
  {
    EntriesBookings(Owned(db.items, userId), OwnerBookings(db.bookings, userId),
                    CommentsOfItems(db.comments, Ids(Owned(db.items, userId))), now);
    assert AllItemsOf(db, userId, now)
        == Entries(Owned(db.items, userId), ToItemBookingDtos(OwnerBookings(db.bookings, userId)),
                   CommentsOfItems(db.comments, Ids(Owned(db.items, userId))), now);
  }

  /** `getAllItems`: one entry per stored item of the user, in ascending
      order of id (entry `k` shows the `k`-th of `Owned`). Each entry carries its last and next booking, chosen among
      the bookings of ALL the owner's items of any status, and its comments
      newest first. `from` and `size` are accepted and never used, and the
      user is not looked up. */
  function GetAllItems(db: Db, userId: int, now: int): (r: seq<ItemWithBookings>)
    ensures ListsInOrder(r, Owned(db.items, userId))
    ensures CarriesOwnComments(r, db.comments)
    ensures BookingsChosenAmong(r, OwnerBookings(db.bookings, userId), now)
  {
    AllItemsShape(db, userId, now);
    AllItemsComments(db, userId, now);
    AllItemsBookings(db, userId, now);
    AllItemsOf(db, userId, now)
  }

  /** The comments an entry of `getAllItems` carries are those `getItemById`
      shows for the same item, in the same order. */
  lemma AllItemsCommentsMatchItemView(db: Db, userId: int, now: int, k: int)
    requires 0 <= k < |GetAllItems(db, userId, now)|
    requires UniqueIds(db.items)
    ensures var e := GetAllItems(db, userId, now)[k];
            GetItemById(db, e.id, userId, now).Ok? &&
            GetItemById(db, e.id, userId, now).value.comments == e.comments
  {
    var e := GetAllItems(db, userId, now)[k];
    var it := Owned(db.items, userId)[k];
    assert it in Owned(db.items, userId);
    FindStored(db.items, it);
  }

  // ---------------------------------------------------------------- searchItems

  /** One output DTO per found item, each carrying the whole `comments` list. */
  function SharedCommentDtos(items: seq<Item>, comments: seq<Comment>): (ds: seq<ItemDto>)
    ensures |ds| == |items|
    ensures forall k :: 0 <= k < |items| ==> ds[k] == ToOutputItemDto(items[k], comments)
  {
    if |items| == 0 then [] else [ToOutputItemDto(items[0], comments)] + SharedCommentDtos(items[1..], comments)
  }

  /** One output DTO per found item, each carrying its own comments picked
      out of `batch`. */
  function PickedCommentDtos(items: seq<Item>, batch: seq<Comment>): (ds: seq<ItemDto>)
    ensures |ds| == |items|
    ensures forall k :: 0 <= k < |items| ==> ds[k] == ToOutputItemDto(items[k], Filter(batch, OfItem(items[k].id)))
  {
    if |items| == 0 then [] else
      [ToOutputItemDto(items[0], Filter(batch, OfItem(items[0].id)))] + PickedCommentDtos(items[1..], batch)
  }

  /** `searchItems` as written: a bad page is IllegalArgument, checked before
      the text; a null or empty text finds nothing; otherwise one page of the
      matching items, each DTO carrying the comments read for the whole page
      (`findByItemIn(items)`), whichever item they are about. */
  function SearchItemsAsWritten(db: Db, text: Option<string>, from: int, size: int): (r: Result<seq<ItemDto>>)
    ensures from < 0 || size <= 0 <==> r == Err(IllegalArgument)
    ensures r.Ok? && (text.None? || |text.value| == 0) ==> r.value == []
    ensures r.Ok? && text.Some? && |text.value| > 0 ==>
              var page := SearchPage(db.items, text.value, from, size);
              && |r.value| == |page|
              && forall k :: 0 <= k < |page| ==> r.value[k] == ToOutputItemDto(page[k], CommentsOn(db.comments, page))
  {
    if from < 0 || size <= 0 then Err(IllegalArgument)
    else if text.None? || |text.value| == 0 then Ok([])
    else
      var page := SearchPage(db.items, text.value, from, size);
      Ok(SharedCommentDtos(page, CommentsOn(db.comments, page)))
  }

  /** `searchItems` corrected: the same guards and page, with each DTO
      carrying only the comments about its own item, picked out of the one
      batch read for the page. */
  function SearchItems(db: Db, text: Option<string>, from: int, size: int): (r: Result<seq<ItemDto>>)
    ensures from < 0 || size <= 0 <==> r == Err(IllegalArgument)
    ensures r.Ok? && (text.None? || |text.value| == 0) ==> r.value == []
    ensures r.Ok? && text.Some? && |text.value| > 0 ==>
              var page := SearchPage(db.items, text.value, from, size);
              && |r.value| == |page|
              && forall k :: 0 <= k < |page| ==> r.value[k] == ToOutputItemDto(page[k], CommentsByItem(db.comments, page[k].id))
  {
    if from < 0 || size <= 0 then Err(IllegalArgument)
    else if text.None? || |text.value| == 0 then Ok([])
    else
      var page := SearchPage(db.items, text.value, from, size);
      var r := PickedCommentDtos(page, CommentsOn(db.comments, page));
      assert forall k :: 0 <= k < |page| ==> r[k] == ToOutputItemDto(page[k], CommentsByItem(db.comments, page[k].id)) by {
        forall k | 0 <= k < |page| ensures r[k] == ToOutputItemDto(page[k], CommentsByItem(db.comments, page[k].id)) {
          PickFromStored(db.comments, page, page[k].id);
        }
      }
      Ok(r)
  }

  /** As written, a found item's DTO carries every comment about any other
      item on the same page. */
  lemma SearchAsWrittenMixesComments(db: Db, text: string, from: int, size: int, i: int, j: int, c: Comment)
    requires from >= 0 && size > 0 && |text| > 0
    requires var page := SearchPage(db.items, text, from, size);
             0 <= i < |page| && 0 <= j < |page| && page[i].id != page[j].id
    requires c in db.comments && c.item.id == SearchPage(db.items, text, from, size)[j].id
    ensures var e := SearchItemsAsWritten(db, Some(text), from, size).value[i];
            && ToCommentDto(c) in e.comments.value
            && ToCommentDto(c).item.id != e.id
  {
    var page := SearchPage(db.items, text, from, size);
    var on := CommentsOn(db.comments, page);
    assert page[j] in page;
    OutputCarries(page[i], on, c);
  }

  /** An output DTO carries the DTO of each comment it is built from. */
  lemma OutputCarries(item: Item, cs: seq<Comment>, c: Comment)
    requires c in cs
    ensures ToCommentDto(c) in ToOutputItemDto(item, cs).comments.value
  {
    var m :| 0 <= m < |cs| && cs[m] == c;
    assert ToOutputItemDto(item, cs).comments.value[m] == ToCommentDto(c);
  }

  /** An output DTO built from comments about its item carries only
      comments about that item. */
  lemma OutputOfOwnComments(item: Item, own: seq<Comment>)
    requires forall c :: c in own ==> c.item.id == item.id
    ensures forall d :: d in ToOutputItemDto(item, own).comments.value ==> d.item.id == Some(item.id)
  {
    var e := ToOutputItemDto(item, own);
    forall d | d in e.comments.value ensures d.item.id == Some(item.id) {
      var m :| 0 <= m < |e.comments.value| && e.comments.value[m] == d;
      assert own[m] in own;
    }
  }

  /** Corrected, every comment a found item's DTO carries is about that item. */
  lemma SearchCommentsAreOwn(db: Db, text: string, from: int, size: int, k: int)
    requires from >= 0 && size > 0 && |text| > 0
    requires 0 <= k < |SearchPage(db.items, text, from, size)|
    ensures var e := SearchItems(db, Some(text), from, size).value[k];
            forall d :: d in e.comments.value ==> d.item.id == e.id
  {
    var page := SearchPage(db.items, text, from, size);
    var own := CommentsByItem(db.comments, page[k].id);
    OutputOfOwnComments(page[k], own);
  }

  /** Two available items named "a", one comment about the second. */
  const ExampleFirst := Item(1, "a", "a", true, 1, None)
  const ExampleSecond := Item(2, "a", "a", true, 1, None)
  const ExampleComment := Comment(1, "fine", ExampleSecond, User(2, "b", "b@x"), 0)
  const ExampleDb := Db(map[1 := User(1, "o", "o@x")], [ExampleFirst, ExampleSecond], [], [ExampleComment], 1, 2)

  /** A search for "a" finds both example items, first on the first page. */
  lemma ExamplePage()
    ensures SearchPage(ExampleDb.items, "a", 0, 10) == [ExampleFirst, ExampleSecond]
  {
    ItemMatchesItsName(ExampleFirst);
    ItemMatchesItsName(ExampleSecond);
    FilterFirst(ExampleDb.items, Matching("a"));
    FilterFirst(ExampleDb.items[1..], Matching("a"));
    assert Filter(ExampleDb.items, Matching("a")) == [ExampleFirst, ExampleSecond];
  }

  /** On the example, the first item's DTO carries the comment about the
      second item. */
  lemma SearchAsWrittenExample()
    ensures var e := SearchItemsAsWritten(ExampleDb, Some("a"), 0, 10).value[0];
            ToCommentDto(ExampleComment) in e.comments.value && e.id == Some(1)
  {
    ExamplePage();
    SearchAsWrittenMixesComments(ExampleDb, "a", 0, 10, 0, 1, ExampleComment);
  }

  // ---------------------------------------------------------------- addComment

  /** `addComment`: an unknown item is ItemNotFound, then an unknown user is
      UserNotFound, then a user without an APPROVED booking of the item that
      ended before now is ItemNotBookedByUser. Otherwise the comment is
      stored with the next comment id, the item, the user as author and now
      as its time, and its DTO is returned. */
  function AddComment(db: Db, text: string, itemId: int, userId: int, now: int): (r: Result<(Db, CommentDto)>)
    ensures FindItem(db.items, itemId).None? <==> r == Err(ItemNotFound)
    ensures FindItem(db.items, itemId).Some? && userId !in db.users <==> r == Err(UserNotFound)
    ensures r == Err(ItemNotBookedByUser) <==>
              && FindItem(db.items, itemId).Some? && userId in db.users
              && forall b :: b in db.bookings ==> !Entitles(b, itemId, userId, now)
    ensures r.Ok? ==>
              var (db', dto) := r.value;
              var c := Comment(db.nextCommentId, text, FindItem(db.items, itemId).value, db.users[userId], now);
              db' == WithComment(db, c) && dto == ToCommentDto(c)
  {
    match FindItem(db.items, itemId)
    case None => Err(ItemNotFound)
    case Some(item) =>
      if userId !in db.users then Err(UserNotFound)
      else
        var ended := ApprovedAndEnded(db.bookings, itemId, userId, now);
        if |ended| == 0 then Err(ItemNotBookedByUser)
        else
          assert ended[0] in ended;
          var c := Comment(db.nextCommentId, text, item, db.users[userId], now);
          Ok((WithComment(db, c), ToCommentDto(c)))
  }

  /** A comment just added shows on its item's view. */
  lemma CommentShowsOnItem(db: Db, text: string, itemId: int, userId: int, now: int)
    requires AddComment(db, text, itemId, userId, now).Ok?
    ensures var (db', dto) := AddComment(db, text, itemId, userId, now).value;
            dto in GetItemById(db', itemId, userId, now).value.comments
  {
    var (db', dto) := AddComment(db, text, itemId, userId, now).value;
    var c := Comment(db.nextCommentId, text, FindItem(db.items, itemId).value, db.users[userId], now);
    assert c in db'.comments;
    var shown := ItemComments(db'.comments, itemId);
    var i :| 0 <= i < |shown| && shown[i] == c;
    assert ToCommentDtos(shown)[i] == dto;
  }

  /** A new comment shows the current item and author, so the store's
      references stay current. */
  lemma AddCommentKeepsReferencesCurrent(db: Db, text: string, itemId: int, userId: int, now: int)
    requires ReferencesCurrent(db)
    requires AddComment(db, text, itemId, userId, now).Ok?
    ensures ReferencesCurrent(AddComment(db, text, itemId, userId, now).value.0)
  {
    var c := Comment(db.nextCommentId, text, FindItem(db.items, itemId).value, db.users[userId], now);
    WithCommentKeepsReferencesCurrent(db, c);
  }
}

=== FILE: text_search.dfy ===
/**
  The keyword match of item search: an available item matches when its
  description or its name contains the text, both lowered. Lowering is
  ASCII only: `A`..`Z` become `a`..`z` and every other character stays.
 */
module TextSearch {
  import opened Domain

  function LowerChar(c: char): (r: char)
    ensures 'A' <= c <= 'Z' ==> 'a' <= r <= 'z' && r as int - c as int == 32
    ensures !('A' <= c <= 'Z') ==> r == c
  {
    if 'A' <= c <= 'Z' then (c as int + 32) as char else c
  }

  /** `toLowerCase`, restricted to ASCII letters. */
  function Lower(s: string): (r: string)
    ensures |r| == |s|
    ensures forall i :: 0 <= i < |s| ==> r[i] == LowerChar(s[i])
  {
    if |s| == 0 then [] else [LowerChar(s[0])] + Lower(s[1..])
  }

  /** Lowering twice is lowering once. */
  lemma LowerIdempotent(s: string)
    ensures Lower(Lower(s)) == Lower(s)
  {
    var l := Lower(s);
    assert forall i :: 0 <= i < |l| ==> LowerChar(l[i]) == l[i];
  }

  /** `t` occurs in `s` at position `i`. */
  predicate OccursAt(s: string, t: string, i: int) {
    0 <= i && i + |t| <= |s| && s[i..i + |t|] == t
  }

  /** `String.contains`: `t` occurs somewhere in `s`; the empty text occurs
      everywhere. */
  function Contains(s: string, t: string): (r: bool)
    decreases |s|
  {
    if |t| <= |s| && s[..|t|] == t then true
    else if |s| == 0 then false
    else Contains(s[1..], t)
  }

  /** `Contains` finds an occurrence exactly when there is one. */
  lemma {:induction false} ContainsIff(s: string, t: string)
    ensures Contains(s, t) <==> exists i :: OccursAt(s, t, i)
    decreases |s|
  {
    if |t| <= |s| && s[..|t|] == t {
      assert OccursAt(s, t, 0);
    } else if |s| == 0 {
      assert forall i :: OccursAt(s, t, i) ==> i == 0 && |t| == 0;
    } else {
      ContainsIff(s[1..], t);
      if Contains(s[1..], t) {
        var i :| OccursAt(s[1..], t, i);
        assert s[i + 1..i + 1 + |t|] == s[1..][i..i + |t|];
        assert OccursAt(s, t, i + 1);
      } else {
        forall i | OccursAt(s, t, i) && i > 0 ensures false {
          assert s[1..][i - 1..i - 1 + |t|] == s[i..i + |t|];
          assert OccursAt(s[1..], t, i - 1);
        }
      }
    }
  }

  /** `t` occurs somewhere in `s`. */
  ghost predicate Occurs(s: string, t: string) {
    exists i :: OccursAt(s, t, i)
  }

  /** `ContainsIff` for the lowered forms the search compares. */
  lemma OccursLowered(s: string, text: string)
    ensures Contains(Lower(s), Lower(text)) <==> Occurs(Lower(s), Lower(text))
  {
    ContainsIff(Lower(s), Lower(text));
  }

  /** The filter of `searchItems`: available, and the lowered text occurs in
      the lowered description or the lowered name. */
  function Matches(item: Item, text: string): (r: bool)
    ensures r <==> item.available && (Occurs(Lower(item.description), Lower(text)) || Occurs(Lower(item.name), Lower(text)))
  {
    OccursLowered(item.description, text);
    OccursLowered(item.name, text);
    item.available && (Contains(Lower(item.description), Lower(text)) || Contains(Lower(item.name), Lower(text)))
  }

  /** The match is case-insensitive in the query: a text and its lowered
      form find the same items. */
  lemma MatchIgnoresQueryCase(item: Item, text: string)
    ensures Matches(item, text) <==> Matches(item, Lower(text))
  {
    LowerIdempotent(text);
  }

  /** An available item always matches the text it is named by, whatever the
      case of either. */
  lemma ItemMatchesItsName(item: Item)
    requires item.available
    ensures Matches(item, item.name)
  {
    var l := Lower(item.name);
    assert l[..|l|] == l;
  }
}

=== FILE: user_store.dfy ===
/**
  InMemoryUserRepository of the monolith: users by id, the id counter, and
  the set of emails in use, which keeps emails unique.
 */
module UserStore {
  import opened Wrappers
  import opened Domain

  /** The repository's three fields; the counter starts at 1. */
  datatype Store = Store(nextId: int, users: map<int, User>, emails: set<string>)

  const Empty := Store(1, map[], {})

  /** The emails of the stored users. */
  function EmailsOf(users: map<int, User>): set<string> {
    set id | id in users :: users[id].email
  }

  /** What the repository keeps true between calls: every user is stored
      under its own id, below the counter; the email set is exactly the
      stored users' emails; no two users share an email. */
  predicate Valid(s: Store) {
    && s.nextId >= 1
    && (forall id :: id in s.users ==> s.users[id].id == id && 1 <= id < s.nextId)
    && s.emails == EmailsOf(s.users)
    && (forall a, b :: a in s.users && b in s.users && a != b ==> s.users[a].email != s.users[b].email)
  }

  lemma EmptyIsValid()
    ensures Valid(Empty)
  {
  }

  /** `addUser`: an email already in use is DuplicateEmail and nothing
      changes; otherwise the user is stored under the counter's value, the
      counter moves on and the email is recorded. */
  function AddUser(s: Store, name: string, email: string): (r: Result<(Store, User)>)
    ensures email in s.emails <==> r == Err(DuplicateEmail)
    ensures r.Ok? ==>
              var (s', u) := r.value;
              && u == User(s.nextId, name, email)
              && s'.nextId == s.nextId + 1
              && s'.users == s.users[s.nextId := u]
              && s'.emails == s.emails + {email}
  {
    if email in s.emails then Err(DuplicateEmail)
    else
      var u := User(s.nextId, name, email);
      Ok((Store(s.nextId + 1, s.users[s.nextId := u], s.emails + {email}), u))
  }

  lemma AddUserKeepsValid(s: Store, name: string, email: string)
    requires Valid(s)
    requires AddUser(s, name, email).Ok?
    ensures Valid(AddUser(s, name, email).value.0)
    ensures s.nextId !in s.users
  {
    var s' := AddUser(s, name, email).value.0;
    var u := User(s.nextId, name, email);
    assert s.nextId !in s.users;
    assert EmailsOf(s'.users) == EmailsOf(s.users) + {email} by {
      forall e ensures e in EmailsOf(s'.users) <==> e in EmailsOf(s.users) + {email} {
        if e in EmailsOf(s.users) {
          var id :| id in s.users && s.users[id].email == e;
          assert s'.users[id] == s.users[id];
        }
        if e == email {
          assert s'.users[s.nextId].email == e;
        }
      }
    }
    forall a, b | a in s'.users && b in s'.users && a != b
      ensures s'.users[a].email != s'.users[b].email
    {
      if a == s.nextId {
        assert s.users[b].email in EmailsOf(s.users);
      } else if b == s.nextId {
        assert s.users[a].email in EmailsOf(s.users);
      }
    }
  }

  /** `getUserById`: the stored user, or UserNotFound. */
  function GetUserById(s: Store, id: int): (r: Result<User>)
    ensures id !in s.users <==> r == Err(UserNotFound)
    ensures r.Ok? ==> r.value == s.users[id] && r.value in s.users.Values
  {
    if id !in s.users then Err(UserNotFound) else Ok(s.users[id])
  }

  /** A user just added is found under the id it was given. */
  lemma AddedUserIsFound(s: Store, name: string, email: string)
    requires AddUser(s, name, email).Ok?
    ensures var (s', u) := AddUser(s, name, email).value;
            GetUserById(s', u.id) == Ok(u)
  {
  }

  /** `editUser` on an existing user. A new name is written first and stays
      even when the email change is then refused. A new email already used
      by another user is DuplicateEmail; one's own email is always allowed;
      otherwise the old email leaves the set and the new one enters it. The
      store is returned in both outcomes, because the name has changed in
      both. */
  function EditUser(s: Store, id: int, name: Option<string>, email: Option<string>): (r: (Store, Result<User>))
    requires id in s.users
    ensures r.0.nextId == s.nextId && r.0.users.Keys == s.users.Keys
    ensures forall other :: other in s.users && other != id ==> r.0.users[other] == s.users[other]
    ensures r.0.users[id].name == (if name.Some? then name.value else s.users[id].name)
    ensures r.0.users[id].id == s.users[id].id
    ensures r.1.Err? <==> email.Some? && email.value != s.users[id].email && email.value in s.emails
    ensures r.1.Err? ==> r.1.error == DuplicateEmail && r.0.emails == s.emails && r.0.users[id].email == s.users[id].email
    ensures r.1.Ok? ==> r.1.value == r.0.users[id]
    ensures r.1.Ok? ==> r.0.users[id].email == (if email.Some? then email.value else s.users[id].email)
    ensures r.1.Ok? && email.Some? ==> r.0.emails == s.emails - {s.users[id].email} + {email.value}
    ensures r.1.Ok? && email.None? ==> r.0.emails == s.emails
  {
    var u := s.users[id];
    var named := if name.Some? then u.(name := name.value) else u;
    var s1 := s.(users := s.users[id := named]);
    if email.None? then (s1, Ok(named))
    else if email.value != u.email && email.value in s.emails then (s1, Err(DuplicateEmail))
    else
      var u' := named.(email := email.value);
      (s1.(users := s.users[id := u'], emails := s.emails - {u.email} + {email.value}), Ok(u'))
  }

  lemma EditUserKeepsValid(s: Store, id: int, name: Option<string>, email: Option<string>)
    requires Valid(s) && id in s.users
    ensures Valid(EditUser(s, id, name, email).0)
  {
    var s' := EditUser(s, id, name, email).0;
    var old_ := s.users[id].email;
    var new_ := s'.users[id].email;
    forall e ensures e in EmailsOf(s'.users) <==> e in s.emails - {old_} + {new_} {
      if e in EmailsOf(s'.users) {
        var k :| k in s'.users && s'.users[k].email == e;
        if k != id {
          assert s.users[k].email == e;
          assert e != old_;
        }
      }
      if e in s.emails - {old_} {
        var k :| k in s.users && s.users[k].email == e;
        assert k != id;
        assert s'.users[k].email == e;
      }
      assert s'.users[id].email == new_;
    }
    assert EmailsOf(s'.users) == s.emails - {old_} + {new_};
    if new_ != old_ {
      assert new_ !in s.emails;
    }
    forall a, b | a in s'.users && b in s'.users && a != b
      ensures s'.users[a].email != s'.users[b].email
    {
      if a == id {
        assert s.users[b].email in s.emails;
      } else if b == id {
        assert s.users[a].email in s.emails;
      }
    }
  }

  /** `deleteUser`: an unknown id is UserNotFound; otherwise the user and its
      email are removed and nothing else changes. */
  function DeleteUser(s: Store, id: int): (r: Result<Store>)
    ensures id !in s.users <==> r == Err(UserNotFound)
    ensures r.Ok? ==> r.value.users == s.users - {id}
    ensures r.Ok? ==> r.value.emails == s.emails - {s.users[id].email}
    ensures r.Ok? ==> r.value.nextId == s.nextId
  {
    if id !in s.users then Err(UserNotFound)
    else Ok(Store(s.nextId, s.users - {id}, s.emails - {s.users[id].email}))
  }

  lemma DeleteUserKeepsValid(s: Store, id: int)
    requires Valid(s) && id in s.users
    ensures Valid(DeleteUser(s, id).value)
  {
    var s' := DeleteUser(s, id).value;
    forall e ensures e in EmailsOf(s'.users) <==> e in s.emails - {s.users[id].email} {
      if e in s.emails - {s.users[id].email} {
        var k :| k in s.users && s.users[k].email == e;
        assert k != id;
        assert s'.users[k].email == e;
      }
    }
  }

  /** An email freed by deleting its user can be registered again. */
  lemma DeletedEmailIsFree(s: Store, id: int, name: string)
    requires Valid(s) && id in s.users
    ensures AddUser(DeleteUser(s, id).value, name, s.users[id].email).Ok?
  {
  }
}

=== FILE: wrappers.dfy ===
/** The optional value used for Java's nullable references and `Optional`. */
module Wrappers {

  /** A nullable reference or field: `None` is Java's `null`. */
  datatype Option<+T> = None | Some(value: T)
}
